=== FILE: README.md ===
# WhatsApp media bot: the decision layer in Dafny

This project models the logic of a WhatsApp bot. The bot downloads media
from links it receives. It also converts uploaded PDFs to Word, looks up
Brazilian postal codes (CEP) and checks where a link leads. Four files hold
that logic, and each one is modelled here:

- `index.ts` holds the message handler. It decides which messages are
  ignored and in what order commands, PDFs, pending YouTube format choices
  and links are recognised. It keeps a per-chat map of pending choices. Its
  `handleDownload` turns a download result or error into replies.
- `download.ts` holds the download pipeline. It builds yt-dlp's arguments
  and finds the downloaded file from yt-dlp's output or the directory. It
  turns a failed run into an error message. It falls back to the page's
  `og:image`/`twitter:image`. It also holds the policy that chooses between
  the two.
- `features.ts` holds the CEP lookup and the link-safety classifier.
- `converter.ts` derives the PDF-to-DOCX output path and decides when a
  conversion succeeded.

The outside world is passed in as values:

- yt-dlp is a function from argument lists to a promised `RunOutcome`:
  the process may never close. The record holds the exit code, the stdout
  chunks in arrival order, the stderr text and the directory listing at
  close.
- The web is two functions: one gives a page's meta tags, one gives what
  saving an image did.
- The disk is a `FileSystem` with `existsAt` and `sizeAt`.
- ViaCEP and the link `HEAD` request are functions from the requested URL
  to what came back.
- `Date.now()` readings are parameters.
- The Python converter is a function from the input and output paths to
  its exit code and stderr.

Sending is not an effect. Each flow returns the messages it sends, in order.
An awaited call that may never settle yields a `Promise`: `Settles(v)` or
`NeverSettles`. Two such waits are modelled. `downloadWithYtDlp` settles
only in the process's `close` handler and sets no timeout, so a yt-dlp
process that never exits leaves the download pending, for audio and video
alike. The preview image's stream is piped into the file, and `pipe` does
not pass a read error on, so a broken-off image leaves the fallback
pending for ever.

The handler returns a `Decision`: the pending map while its actions run
(`during`), the map once they are done (`after`), the actions, and whether
it returns from the whole `messages.upsert` callback (`endsBatch`). The
pending entry of a chosen format is deleted only after the awaited
download, so `during` is what a second message of the same chat sees.
`Router.Perform` turns actions into messages, and `Router.RespondBatch`
handles a whole batch.

Modules:

- `base.dfy`: `Results` and `Seqs`.
- `text.dfy`: `Text`, the JavaScript string operations the bot uses: `\s`,
  `trim`, `includes`, `replace(/\D/g,'')`, and `${n}` for integers.
- `paths.dfy`: `Paths`, Node's POSIX `basename`, `extname` and `join`
  (with `normalize`: empty and `.` segments vanish, `..` removes the
  segment before it), plus the file-system view.
- `download.dfy`: `Download`.
- `features.dfy`: `Features`.
- `converter.dfy`: `Converter`.
- `replies.dfy`: `Replies`, the outbound messages of index.ts.
- `router.dfy`: `Router`, the message handler.

Where the code and its own description differ, the model follows the code.
The error-text rewrite is one example. The "private or unavailable" test
runs on the already rewritten text, so a message that mentions both
`deprecated` and `yt-dlp exited with code 1` is reported as an update
problem (`Replies.ErrorText`).

## Model

| member | source | states |
|---|---|---|
| Text.KeepDigits | features.ts:7 | the CEP with its non-digits deleted is all digits, and keeps every digit of the input as often as it occurs |
| Text.KeepDigitsAppend | features.ts:7 | deleting non-digits distributes over concatenation |
| Text.KeepDigitsCons | features.ts:7 | a leading digit is kept in front of the rest, a leading non-digit is dropped |
| Text.KeepDigitsOfDigits | features.ts:7 | a text of digits is left as it is |
| Text.KeepDigitsOfNonDigits | features.ts:7 | a text without digits is deleted entirely |
| Text.DecimalRoundTrip | download.ts:45-53 | the decimal text of a timestamp reads back as that timestamp, so distinct runs get distinct prefixes |
| Paths.SegmentsRoundTrip | index.ts:194 | splitting a path at its slashes and putting the slashes back gives the path |
| Paths.SegmentsConcat | index.ts:194 | the `/` that `join` puts between directory and name separates their segments |
| Paths.ResolveAll | index.ts:194 | resolved segments hold no empty or `.` segment, and `..` only in a leading run of a relative path |
| Paths.Normalize | index.ts:194 | a normalised path is never empty |
| Paths.JoinPlain | download.ts:113 | a plain name joined onto any directory ends the path, right after a `/` unless it is the whole path |
| Paths.JoinInside | index.ts:194 | a plain name joined onto a plain directory is `dir/name` |
| Paths.JoinClimbsOut | index.ts:194 | `sub/../../a/b` joined onto a plain directory lands at `a/b`, outside the directory |
| Paths.JoinDropsDot | index.ts:194 | `sub/.` joined onto a plain directory is `dir/sub`: the trailing dot vanishes |
| Paths.StripTrailingSlashes | download.ts:122 | trailing slashes are removed, and only slashes |
| Paths.Basename | download.ts:122 | the base name is the slash-free end of the path once trailing slashes are gone, starting after the last `/` |
| Paths.BasenameOfJoin | download.ts:113 | a plain name (non-empty, not `.` or `..`, no `/`) joined onto a directory is that path's base name |
| Paths.BasenameOfEnding | download.ts:122 | a path that ends in a plain name, right after a `/` or as the whole path, has that name as its base name |
| Paths.Extension | download.ts:163 | an extension is empty or a dot followed by dot-free text, and is a proper suffix of the base name |
| Paths.Stem | converter.ts:9 | the stem followed by the extension is the base name; the stem is empty only for an empty base name |
| Paths.ExtnameChars | download.ts:163 | every character of an extension comes from the path and none is `/` |
| Paths.ExtensionAfterPrefix | index.ts:193 | behind a non-empty dot-free prefix the extension is the rest's last-dot suffix, even when the rest starts with a dot |
| Download.RunPrefixesDiffer | download.ts:45-53 | no file name carries the prefixes of two different runs |
| Download.YtDlpArgsCommon | download.ts:55-78 | the URL comes first and both formats pass `--no-playlist` and `--force-overwrites` |
| Download.YtDlpArgsLimits | download.ts:58-74 | `--format` is `bestaudio[ext=m4a]/bestaudio/best` or `best[ext=mp4]/best`, and `--max-filesize` is `100M` or `500M`, by format |
| Download.TemplateEnd | download.ts:53-67 | the output template joined onto the directory is non-empty and ends in the `s` of `%(ext)s` |
| Download.YtDlpArgsTemplate | download.ts:53-67 | the `-o` template's file name is `<timestamp>_` plus the format's title pattern, the video one cutting titles to 50 characters |
| Download.FormatsGiveDifferentArgs | download.ts:52-78 | audio and video runs are started with different argument lists |
| Download.LabelCapture | download.ts:95-99 | a capture exists only where the label occurs, and it is non-empty text without line terminators |
| Download.SpaceThenLineOf | download.ts:95 | `\s+(.+)` skips the white space and takes the rest of the line |
| Download.LabelCaptureOf | download.ts:95-99 | after the first occurrence of the label, the capture is the rest of that line behind the white space |
| Download.LabelCaptureSkips | download.ts:95-99 | a prefix at none of whose positions the label starts leaves the capture unchanged, so the leftmost occurrence is the one captured |
| Download.DestinationLineAnnounced | download.ts:94-99 | a chunk with a `Destination:` line and no `Already downloaded:` announces that line's path |
| Seqs.LastSomeAbsent | download.ts:89-100 | a variable overwritten by every element that yields a value stays unset exactly when no element yields one |
| Seqs.LastSomeIsLast | download.ts:89-100 | when it is set, it holds the value of an element after which no element yields one |
| Download.LastCaptureAbsent | download.ts:89-100 | no path is captured exactly when no stdout chunk announces one |
| Download.LastCaptureIsLastAnnouncement | download.ts:89-100 | a captured path is the announcement of the last announcing chunk, and no later chunk announces one |
| Download.CaptureStream | download.ts:89-100 | processing the chunks as they stream, with `Already downloaded` overriding `Destination` in a chunk, gives the last announcement |
| Download.DirectoryScan | download.ts:107-116 | the scan yields the first listed entry with the run prefix, joined onto the directory, and nothing when the listing threw or has no such entry |
| Download.ResolveDestination | download.ts:106-116 | a captured path always wins, and the directory is consulted only without one |
| Download.ScanFindsTheRunFile | download.ts:107-116 | with nothing captured and one run file listed, that file is resolved |
| Download.CleanStderr | download.ts:128 | removing deprecation notices never lengthens stderr |
| Download.CleanStderrKeepsOrdinaryText | download.ts:128 | stderr without `Deprecated Feature:` passes through unchanged |
| Download.CleanStderrKeepsPrefix | download.ts:128 | text before the first `Deprecated Feature:` is kept as it is, in front of the filtered rest |
| Download.LazyEndSkipsNotice | download.ts:128 | the lazy `.*?` scan ends right after the first `deprecated\n` when no line ends before it |
| Download.CleanStderrDropsNotice | download.ts:128 | a one-line `Deprecated Feature: … deprecated` notice is removed and the rest is filtered as before |
| Download.CleanStderrDropsLaterNotice | download.ts:128 | anywhere in stderr a one-line notice is removed: `x + notice + rest` becomes `x` followed by the filtered rest |
| Download.FailureMessage | download.ts:129 | the message starts with `yt-dlp exited with code N. Stderr: ` and ends with the cleaned stderr, or `No video file found.` when nothing is left |
| Download.OnClose | download.ts:118-130 | success exactly when the resolved path exists, whatever the exit code; the result carries that path, its base name, the format's media type and the size on disk; failure carries the failure message |
| Download.DownloadWithYtDlp | download.ts:83-131 | the result never settles exactly when the yt-dlp process never closes; once it closes, the result is what the `close` handler decides |
| Download.PreviewImage | download.ts:149-156 | a chosen image is non-empty and is the content of an og:image or twitter:image tag |
| Download.OgImagePreferred | download.ts:149-152 | a usable og:image is taken whatever twitter:image says |
| Download.TwitterImageWithoutOgImage | download.ts:150-152 | without og:image the first twitter:image is taken |
| Download.NoPreviewWithoutTags | download.ts:154-156 | without either tag there is no image |
| Download.ImageExtension | download.ts:163-164 | the query-less URL's `extname` is taken exactly when it has 1 to 5 characters; an empty or longer one gives `.jpg` |
| Download.ImageExtensionIsPlain | download.ts:163-166 | the extension never brings a `/` or `?` into the file name |
| Download.ImageFileName | download.ts:161-166 | the image's file name is a plain name with the run prefix whose extension is the guessed one |
| Download.ScrapeOgImage | download.ts:136-191 | a page error or a missing image is an error; with an image, the result succeeds exactly when the transfer saved it, a failed transfer gives its error, and a broken-off image stream never settles; a success is the image file in the output directory |
| Download.ScrapedImageInOutputDir | download.ts:166-186 | the saved image's title is the base name of its path |
| Download.CombinedFailure | download.ts:38 | the combined error contains both the yt-dlp message and the scrape message |
| Download.DownloadMedia | download.ts:20-41 | a yt-dlp run that never closes leaves it pending; a primary success is returned as is; an audio failure gives the fixed audio message; a video failure gives the scrape result, or an error containing both messages, and never settles exactly when the scrape never settles |
| Download.DownloadStallCases | download.ts:20-41 | a download never settles exactly when yt-dlp never closes, or when it is a video whose yt-dlp run failed, whose page has a preview image, and whose image transfer stalled |
| Download.AudioNeverScrapes | download.ts:29-31 | an audio request's outcome does not depend on the web or the scrape clock |
| Download.MediaTypeFollowsRequest | download.ts:20-41 | audio requests end in audio; video requests end in video or, through the fallback, an image |
| Features.NormalizeCep | features.ts:7 | the normalised CEP is all digits and keeps every digit of the input |
| Features.NormalizeFormattedCep | features.ts:7 | `12345-678` normalises to `12345678` |
| Features.ConsultCep | features.ts:6-22 | a CEP without 8 digits is refused before any request; with 8 digits, success exactly when ViaCEP answers with an address without `erro`, and every failure, the not-found flag included, is `Erro ao consultar CEP.` |
| Features.ConsultCepHidesNotFound | features.ts:14-20 | for an unknown CEP the as-written lookup gives the generic error, never `CEP não encontrado.` |
| Features.ConsultCepIntended | features.ts:6-22 | as `ConsultCep`, but an 8-digit CEP fails with `CEP não encontrado.` exactly when ViaCEP flags it, and with `Erro ao consultar CEP.` exactly when the request failed |
| Features.CepAnswerContents | features.ts:17-18 | the answer ends with the CEP line and contains the street/bairro and city/UF lines |
| Features.ConsultCepVersionsAgree | features.ts:6-22 | the two lookups differ only on an unknown CEP |
| Features.SuspiciousMeans | features.ts:33-34 | a final URL is suspicious exactly when it contains `ngrok`, `serveo`, `bit.ly` or `tinyurl` |
| Features.CheckLinkSafety | features.ts:27-49 | a failed request gives the error line; otherwise the header with both URLs is followed by the warning exactly when the final URL is suspicious, and by the OK line exactly when it is not |
| Features.FinalUrlDefaultsToInput | features.ts:31 | without a response URL the input URL is judged |
| Converter.DocxPathShape | converter.ts:9-10 | the output's base name is the input's stem with `.docx`, and for an output directory that is a plain name (such as `temp_downloads`) the output is exactly `<outputDir>/<stem>.docx` |
| Converter.ConvertPdfToDocx | converter.ts:8-31 | success, with the output path, exactly when the process exits with 0 and the output exists; otherwise `PDF conversion failed: ` and the stderr |
| Replies.StripTimestampPrefix | index.ts:285 | the result is a suffix of the title; the title changes exactly when it starts with digits and `_`, and then only that prefix goes |
| Replies.StripTimestampRoundTrip | index.ts:193-200 | a name saved as `<timestamp>_<name>` comes back as `<name>` |
| Replies.StripTimestampOnce | index.ts:285 | only one prefix is removed: a second timestamp stays |
| Replies.MediaReply | index.ts:284-318 | files over 60 MiB go as documents named by the clean title; otherwise video, image, audio (requested audio or `.mp3`) or an octet-stream document, in that order; the reply carries the downloaded file |
| Replies.ErrorText | index.ts:330-332 | `deprecated` gives the update text, else `yt-dlp exited with code 1` gives the private-content text, else the reason is kept |
| Replies.MarkersAbsent | index.ts:331-332 | neither replacement text contains either marker |
| Replies.ErrorTextIdempotent | index.ts:330-332 | rewriting a rewritten reason changes nothing |
| Replies.DownloadReplies | index.ts:275-337 | an hourglass first, and it is the only message exactly when the download never settles; once it settles, the media and a check mark when it succeeded and the file is there, or the failure text and a cross |
| Replies.StalledDownloadIsHourglass | index.ts:277-279 | a download that never settles is answered with the hourglass reaction alone |
| Replies.HungYtDlpLeavesHourglass | index.ts:277-279 | when the yt-dlp process never closes, the hourglass is the only message, for audio and video alike |
| Replies.StalledImageLeavesHourglass | index.ts:277-279 | a video whose yt-dlp run failed and whose preview image stream breaks off gets the hourglass and nothing else |
| Replies.YtDlpSuccessIsDelivered | index.ts:279-321 | a file yt-dlp left on disk is always delivered |
| Replies.AudioFailureText | index.ts:327-335 | a failed audio request always reports the fixed audio text |
| Replies.CepAnswer | index.ts:163-167 | an address is sent as it is, an error behind `❌ *Erro:* `, and only errors carry that prefix |
| Replies.CepReply | index.ts:160-168 | the answer to `!cep`: the address exactly when the lookup as written succeeds, else its error behind `❌ *Erro:* ` |
| Replies.CepReplyIntended | index.ts:160-168 | the same answer built on the lookup that reports an unknown CEP |
| Replies.UnknownCepReply | index.ts:160-168 | an unknown 8-digit CEP is answered with `Erro ao consultar CEP.`, where `CEP não encontrado.` was meant |
| Replies.ShortCepRefused | index.ts:160-168 | a CEP without eight digits is answered with the invalid-CEP error |
| Replies.PdfReplies | index.ts:180-218 | a gear, then either the Word document (clean name, DOCX type, caption) and a check mark, or `❌ *Falha na Conversão:* ` and the reason of the failed media fetch or conversion; the upload is converted from `join(temp_downloads, <timestamp>_<name>)` |
| Replies.PdfOutcome | index.ts:180-218 | the PDF flow ends in a check mark exactly when the media fetch and the conversion both succeed; otherwise it sends just the gear and one text that starts with `❌ *Falha na Conversão:* ` |
| Replies.StampedStem | index.ts:193-199 | the saved upload's stem is its timestamp prefix plus the uploaded name without its last extension |
| Replies.ConvertedDocumentName | index.ts:193-207 | for an uploaded name without `/`, the document reaches the user under that name with its last extension replaced by `.docx` |
| Replies.DeliveredName | index.ts:205-207 | when the upload was saved as the timestamp followed by a name and the conversion succeeded, the document is sent as that name plus `.docx` |
| Replies.UploadEscapesTempDir | index.ts:193-196 | an upload named `/../../auth_info_baileys/creds.json` is written to `auth_info_baileys/creds.json` |
| Replies.SlashDotUploadLosesName | index.ts:193-207 | an upload named `/.` comes back as a document named `.docx` |
| Replies.SlashDotSavedAsStamp | index.ts:193-194 | an upload named `/.` is saved under the timestamp alone, so nothing of the name is left for the document |
| Replies.SafeUploadPath | index.ts:193-194 | the corrected save path lies directly inside `temp_downloads` and is named by the timestamp and the upload's base name |
| Replies.SafeUploadPathAgrees | index.ts:193-194 | for a name without `/` the corrected path is where the upload is saved now |
| Router.UrlAt | index.ts:247 | a match at the start is a maximal link token ending at white space or the end; no match means no prefix is a link |
| Router.UrlTokenStart | index.ts:247 | a link matched at the start of a text begins with `http://` or `https://` and lies inside the run of non-space characters there |
| Router.UrlStart | index.ts:247-248 | the position found is the leftmost where the link expression matches |
| Router.FirstUrlIsLeftmostMatch | index.ts:247-251 | the link taken is a whole match, runs to the next white space, and no link starts earlier |
| Router.FirstUrlShape | index.ts:247-251 | the link taken is a link, sits in the text where the expression first matches, and ends at white space or the end of the text |
| Router.FirstUrlNone | index.ts:247-250 | no link is taken exactly when no part of the text is a link |
| Router.LinkAlone | index.ts:247-251 | a message that is only a link is taken whole |
| Router.DownloadCount | index.ts:226-267 | counting downloads gives zero exactly when no action is a download |
| Router.Handle | index.ts:100-268 | ignored messages change nothing and do not end the batch; the handler returns from the batch exactly for commands, PDFs, pending choices and YouTube links; while the actions run the map is unchanged or holds the message's link; other chats' entries never change |
| Router.HandleStartsAtMostOneDownload | index.ts:226-267 | one message starts at most one download |
| Router.HandleKeepsValidPending | index.ts:254-258 | pending entries, during and after the actions, only ever hold YouTube links taken from a message |
| Router.PendingChoiceSettles | index.ts:226-244 | with a pending choice, `1`/`audio` downloads its link as audio, `2`/`video` as video, and anything else gets the invalid-choice reply; the entry stays while the actions run, is gone afterwards, and the batch ends |
| Router.LinkWithoutPending | index.ts:247-267 | without a pending choice: no link, no action; a YouTube link is held and ends the batch; another link is downloaded as video and the batch goes on |
| Router.LinkIsNotCommand | index.ts:140-177 | a link is never taken for a command |
| Router.YouTubeLinkHeld | index.ts:254-262 | a lone YouTube link is stored as pending and answered with the format question |
| Router.AnswerOneDownloadsAudio | index.ts:226-232 | `1` downloads the pending link as audio; the entry is cleared once that is done |
| Router.AnswerTwoDownloadsVideo | index.ts:233-238 | `2` downloads the pending link as video; the entry is cleared once that is done |
| Router.YouTubeConversation | index.ts:226-262 | a YouTube link followed by `1` downloads that link as audio and leaves the map as it was |
| Router.RepeatedChoiceDownloadsTwice | index.ts:223-232 | a second `1` while the first download runs starts the same download again |
| Router.LinkDuringDownloadIsLost | index.ts:223-244 | a YouTube link sent while a chosen download runs is refused as an invalid choice and not held |
| Router.LinkIsNoChoice | index.ts:226-244 | a link is neither the audio answer nor the video answer to the format question |
| Router.CepArgument | index.ts:160-161 | `!cep` looks up the rest of the text with its surrounding white space removed |
| Router.MenuAnswered | index.ts:142-156 | `!menu` or `!ajuda`, in any letter case, is answered with the menu and ends the batch, even when the message also carries a PDF |
| Router.CepIsOnlyCep | index.ts:142-172 | a text starting with `!cep ` is neither the menu command nor a `!check ` text |
| Router.CheckIsOnlyCheck | index.ts:142-172 | a text starting with `!check ` is neither the menu command nor a `!cep ` text |
| Router.CepCommandLooksUp | index.ts:160-168 | any `!cep ` text looks up the rest of the text with its surrounding white space removed, and ends the batch |
| Router.CheckArgument | index.ts:172-176 | any `!check ` text checks the rest of the text with its surrounding white space removed, and ends the batch |
| Router.PdfConverted | index.ts:181-218 | a PDF sent without a command is converted under the file name it came with, and ends the batch |
| Router.Perform | index.ts:155-267 | a reply action sends its text, a CEP action the CEP answer as written, a link check the safety report, a PDF the conversion replies, and a download action the download replies |
| Router.PerformAll | index.ts:226-243 | the actions finish exactly when each one does, and the first action's messages come first |
| Router.Respond | index.ts:223-243 | a handler that returns leaves the `after` map; one stuck on a download leaves the map it had while running; ignored messages send nothing |
| Router.RespondBatch | index.ts:100-101 | only `notify` batches are handled: any other batch sends nothing and changes nothing |
| Router.RespondFrom | index.ts:102-268 | the first message's replies come first in the batch's output |
| Router.IgnoredBatchIsSilent | index.ts:103-110 | a batch of skipped messages changes nothing and sends nothing |
| Router.CommandEndsBatch | index.ts:156-218 | after a command or PDF the rest of the batch is never looked at |
| Router.PlainLinkContinuesBatch | index.ts:264-268 | after a non-YouTube link's download the next message of the batch is handled |
| Router.StalledChoiceKeepsEntry | index.ts:233-238 | `2` with a video download that never settles sends the announcement and the hourglass only, and the chat's entry stays |
| Router.StalledAfterReply | index.ts:233-238 | a reply followed by an action that never finishes sends the reply and what that action sends, and the run does not finish |
| Router.StalledVideoSends | index.ts:233-238 | the video announcement followed by a download that never settles sends the announcement and the hourglass, and the run does not finish |

## Left out

- Process spawning, stream events, HTTP, HTML parsing and `fs` calls are
  not modelled. They are inputs: yt-dlp outcomes, meta-tag lists, image
  transfers, ViaCEP and `HEAD` answers, and a `FileSystem`.
- The connection lifecycle, QR printing, reconnecting, credential storage
  and the Supabase user upsert are left out. They are I/O with no decision
  the replies depend on.
- `auth_supabase.ts` is not part of this model. It only wraps database
  calls.
- The periodic temp-file sweep, the keep-alive HTTP server and SIGINT
  handling are left out. They are timers and process plumbing.
- The large-file caption prints the size in MiB with `toFixed(2)`. That is
  floating point, so the caption is `SizeCaption(size)`.
- `mime.lookup` is a parameter, a function from paths to an optional type.
- The Python command text and how the paths are quoted inside it are left
  out. It is an external tool invocation, so the converter sees only the
  two paths.
- Exceptions thrown by `sendMessage`, `writeFileSync`, `readFileSync`
  and `fs.unlinkSync` are not modelled. The last runs after the check mark
  of the PDF flow (index.ts:212); if it threw, the flow would send the
  failure text as well. The flows assume sending succeeds.
- `Text.ToLowerAscii` folds ASCII letters only. JavaScript also folds other
  letters, but the only non-ASCII characters it lower-cases to ASCII are
  U+212A (to `k`) and U+0130. None of the compared words contains `k` or
  `i` followed by a combining dot, so the comparisons agree.
- JavaScript strings are UTF-16. Here a `char` is a Unicode scalar value.
  Lengths of texts with characters outside the Basic Multilingual Plane
  differ, and only the image-extension length test is affected.
- Router.Perform: one `World` serves every action of a batch. A message
  starts at most one download, so no two actions share an outcome they
  should not. Two downloads of one batch would see the same yt-dlp and web
  answers.
- Router.Handle: handlers of different `messages.upsert` events run
  concurrently. The model gives what a second message sees while the
  first one's actions run (`during`) and proves the two races through it,
  but it does not interleave whole handlers or their sent messages.
- Download.DownloadStallCases: the other awaited calls are
  assumed to settle. These are the page GET of the fallback, the image
  GET before its stream is piped, the ViaCEP GET, the link `HEAD` request,
  the `python3` converter (awaited only on `close`), `downloadMediaMessage`
  and `sendMessage`. None sets a timeout, so each could keep its handler
  waiting as a hung yt-dlp does. The model covers only the two waits above.
- Several lemmas are plain consequences of the function definitions.
  Examples are `Download.AudioNeverScrapes` and `Replies.AudioFailureText`.
  They restate the source's promises in the caller's terms.

## Findings

| source | as written | input that shows it | evidently intended | confidence | as-written member | corrected member |
|---|---|---|---|---|---|---|
| index.ts:193-194 | the sender's file name is joined onto `temp_downloads` unchecked | a PDF named `/../../auth_info_baileys/creds.json` is written to `auth_info_baileys/creds.json`; one named `/.` is saved as the bare timestamp and sent back as `.docx` | the upload is saved inside `temp_downloads` under its base name | high, not executed | Replies.UploadEscapesTempDir, Replies.SlashDotUploadLosesName | Replies.SafeUploadPath |
| features.ts:14-20 | the `CEP não encontrado.` error is thrown inside the `try`, and the `catch` replaces it with `Erro ao consultar CEP.` | any 8-digit CEP for which ViaCEP answers `{"erro": true}`, e.g. `99999999` | an unknown CEP is reported as `CEP não encontrado.` | medium, not executed | Features.ConsultCepHidesNotFound | Features.ConsultCepIntended |

The bot's flows follow the code as written: `Replies.CepReply` and
`Router.Perform` use `Features.ConsultCep`, and `Replies.PdfReplies` saves
where `join` puts the upload. `Replies.CepReplyIntended` and
`Replies.SafeUploadPath` are the corrected versions.

=== FILE: base.dfy ===
/** The two things the bot's asynchronous operations can end with: a value,
    or an `Error` whose `message` is all any caller reads. */
module Results {

  datatype Result<+T> = Ok(value: T) | Err(message: string)

  /** A value JavaScript may leave `undefined`/`null`. */
  datatype Option<+T> = None | Some(value: T)

  /** A promise as its awaiter sees it: it settles with a value, or it
      never settles and the `await` never returns. */
  datatype Promise<+T> = Settles(value: T) | NeverSettles
}

/** Searches over sequences. */
module Seqs {
  import opened Results

  /** Index of the first element satisfying `p` (JavaScript's `findIndex`,
      and the element behind `find` and behind a selector's `.first()`). */
  function FirstWhere<T>(xs: seq<T>, p: T -> bool): (r: Option<nat>)
    ensures r.Some? ==> r.value < |xs| && p(xs[r.value])
    ensures r.Some? ==> forall j | 0 <= j < r.value :: !p(xs[j])
    ensures r.None? ==> forall j | 0 <= j < |xs| :: !p(xs[j])
  {
    if xs == [] then None
    else if p(xs[0]) then Some(0)
    else match FirstWhere(xs[1..], p)
      case None => None
      case Some(i) => Some(i + 1)
  }

  /** The last `Some` among `f`'s values on `xs`: a handler that overwrites
      a variable whenever an element yields a value ends with this one. */
  function LastSome<T, U>(xs: seq<T>, f: T -> Option<U>): Option<U> {
    if xs == [] then None
    else
      var c := f(xs[|xs| - 1]);
      if c.Some? then c else LastSome(xs[..|xs| - 1], f)
  }

  /** Nothing is found exactly when no element yields a value. */
  lemma {:induction false} LastSomeAbsent<T, U>(xs: seq<T>, f: T -> Option<U>)
    ensures LastSome(xs, f).None? <==> forall j | 0 <= j < |xs| :: f(xs[j]).None?
  {
    if xs != [] {
      var n := |xs| - 1;
      LastSomeAbsent(xs[..n], f);
      assert forall j | 0 <= j < n :: xs[..n][j] == xs[j];
    }
  }

  /** A value found is the one of the last element that yields a value. */
  lemma {:induction false} LastSomeIsLast<T, U>(xs: seq<T>, f: T -> Option<U>)
    requires LastSome(xs, f).Some?
    ensures exists j | 0 <= j < |xs| ::
        && f(xs[j]) == LastSome(xs, f)
        && forall k | j < k < |xs| :: f(xs[k]).None?
  {
    var n := |xs| - 1;
    if f(xs[n]).None? {
      var init := xs[..n];
      LastSomeIsLast(init, f);
      var j :| 0 <= j < |init| && f(init[j]) == LastSome(init, f)
        && forall k | j < k < |init| :: f(init[k]).None?;
      assert init[j] == xs[j];
      assert forall k | j < k < |xs| :: f(xs[k]).None? by {
        assert forall k | j < k < n :: init[k] == xs[k];
      }
    }
  }

  /** A sequence is a prefix of itself followed by anything. */
  lemma {:induction false} PrefixOfAppend<T>(a: seq<T>, b: seq<T>)
    ensures a <= a + b
  {
    assert (a + b)[..|a|] == a;
  }

  /** Two singletons concatenated are the pair. */
  lemma {:induction false} PairOfSingletons<T>(x: T, y: T)
    ensures [x] + [y] == [x, y]
  {
  }

  /** The elements of a sequence's tail are its elements from the second on. */
  lemma {:induction false} TailIndices<T>(xs: seq<T>)
    requires xs != []
    ensures forall i | 1 <= i < |xs| :: xs[i] == xs[1..][i - 1]
  {
  }
}

=== FILE: converter.dfy ===
/** converter.ts: the PDF-to-DOCX conversion's file naming and its
    success condition; the Python process is an oracle from the input and
    output paths to how it ended. */
module Converter {
  import opened Text
  import opened Results
  import opened Paths

  datatype ConversionRun = ConversionRun(exitCode: Option<int>, stderr: string)

  /** The input's base name with its last extension replaced by `.docx`. */
  function DocxName(inputPath: string): string {
    Stem(inputPath) + ".docx"
  }

  function DocxPath(inputPath: string, outputDir: string): string {
    Join(outputDir, DocxName(inputPath))
  }

  /** The output file sits directly in the output directory and is named
      after the input's base name with `.docx` in place of its extension. */
  lemma {:induction false} DocxPathShape(inputPath: string, outputDir: string)
    ensures var out := DocxPath(inputPath, outputDir);
      && Basename(out) == DocxName(inputPath)
      && IsSuffix(".docx", Basename(out))
      && (PlainName(outputDir) ==> out == outputDir + "/" + DocxName(inputPath))
  {
    var stem := Stem(inputPath);
    assert '/' !in stem by {
      assert stem + Extname(inputPath) == Basename(inputPath);
    }
    DocxHasNoSlash();
    BasenameOfJoin(outputDir, stem + ".docx");
    if PlainName(outputDir) {
      JoinInside(outputDir, stem + ".docx");
    }
  }

  lemma {:induction false} DocxHasNoSlash()
    ensures '/' !in ".docx"
  {
    assert forall i | 0 <= i < |".docx"| :: ".docx"[i] != '/';
  }

  const ConversionFailedPrefix := "PDF conversion failed: "

  /** `convertPdfToDocx`: resolves with the output path exactly when the
      process exits with 0 and the output file exists; otherwise rejects
      with everything the process wrote to stderr. */
  function ConvertPdfToDocx(inputPath: string, outputDir: string,
                            convert: (string, string) -> ConversionRun, fs: FileSystem): (r: Result<string>)
    ensures var run := convert(inputPath, DocxPath(inputPath, outputDir));
      && (r.Ok? <==> run.exitCode == Some(0) && fs.existsAt(DocxPath(inputPath, outputDir)))
      && (r.Ok? ==> r.value == DocxPath(inputPath, outputDir))
      && (r.Err? ==> r.message == ConversionFailedPrefix + run.stderr)
  {
    var outputPath := DocxPath(inputPath, outputDir);
    var run := convert(inputPath, outputPath);
    if run.exitCode == Some(0) && fs.existsAt(outputPath) then Ok(outputPath)
    else Err(ConversionFailedPrefix + run.stderr)
  }
}

=== FILE: download.dfy ===
/** download.ts: the yt-dlp run (its arguments, how the downloaded file is
    found from its output or the directory, how its failure is reported),
    the og:image scraping fallback, and the policy that chooses between
    them. The process, the network and the disk are inputs: a yt-dlp
    oracle from argument lists to run outcomes, a web oracle, a
    `FileSystem`, and the `Date.now()` readings. */
module Download {
  import opened Text
  import opened Results
  import opened Seqs
  import opened Paths

  /** The `formatType` a caller asks for. */
  datatype Format = Audio | Video

  datatype MediaType = VideoMedia | ImageMedia | DocumentMedia | AudioMedia

  datatype DownloadResult = DownloadResult(filePath: string, title: string, mediaType: MediaType, size: nat)

  /** What a finished yt-dlp process left behind. */
  datatype RunOutcome = RunOutcome(
    exitCode: Option<int>,        // `null` when the process died from a signal
    stdoutChunks: seq<string>,    // the `data` events of stdout, in arrival order
    stderr: string,               // every stderr `data` event, concatenated
    listing: Option<seq<string>>) // `readdirSync(outputDir)` at close; `None` if it threw

  /** What the image download of the fallback did with its write stream:
      it finished, it failed (the request, or the write stream's `error`),
      or the image stream broke off. `pipe` does not pass a read error on
      to the write stream, which then neither finishes nor fails. */
  datatype Transfer = Saved | TransferFailed(message: string) | Stalled

  /** One `<meta>` element of the scraped page, with the attributes read. */
  datatype MetaTag = MetaTag(property: Option<string>, name: Option<string>, content: Option<string>)

  /** The outside world one `downloadMedia` call sees. */
  datatype Environment = Environment(
    ytdlp: seq<string> -> Promise<RunOutcome>,        // the process spawned with these arguments; it may never close
    ytdlpNow: nat,                                     // `Date.now()` in downloadWithYtDlp
    fetchPage: string -> Result<seq<MetaTag>>,         // axios GET of the page, parsed
    saveImage: (string, string) -> Transfer,           // GET of an image URL piped into a path
    scrapeNow: nat,                                    // `Date.now()` in scrapeOgImage
    fs: FileSystem)

  // ---------------------------------------------------------------------
  // yt-dlp arguments

  /** The `%(title)` part of the output template: video titles are cut to 50 characters. */
  function TitlePattern(f: Format): string {
    match f
    case Audio => "%(title)s.%(ext)s"
    case Video => "%(title).50s.%(ext)s"
  }

  function Selector(f: Format): string {
    match f
    case Audio => "bestaudio[ext=m4a]/bestaudio/best"
    case Video => "best[ext=mp4]/best"
  }

  function MaxFilesize(f: Format): string {
    match f
    case Audio => "100M"
    case Video => "500M"
  }

  /** The run-scoped prefix every file of a run is named with. */
  function RunPrefix(now: nat): string {
    Decimal(now) + "_"
  }

  /** A file name carries the prefix of at most one run, so the directory
      scan of one run never picks up a file of another. */
  lemma {:induction false} RunPrefixesDiffer(now1: nat, now2: nat, name: string)
    requires IsPrefix(RunPrefix(now1), name) && IsPrefix(RunPrefix(now2), name)
    ensures now1 == now2
  {
    RunPrefixLength(now1, name);
    RunPrefixLength(now2, name);
    var k := Run(name, IsDigit);
    assert Decimal(now1) == name[..k] == Decimal(now2);
    DecimalInjective(now1, now2);
  }

  /** The digits of a run prefix are the leading digits of the name. */
  lemma {:induction false} RunPrefixLength(now: nat, name: string)
    requires IsPrefix(RunPrefix(now), name)
    ensures |Decimal(now)| == Run(name, IsDigit)
    ensures name[..|Decimal(now)|] == Decimal(now)
  {
    var d := Decimal(now);
    assert name[..|d| + 1] == d + "_";
    assert name == d + name[|d|..];
    assert name[|d|..][0] == '_';
    assert forall i | 0 <= i < |d| :: IsDigit(d[i]);
    RunOf(d, name[|d|..], IsDigit);
  }

  function YtDlpArgs(url: string, outputDir: string, now: nat, f: Format): seq<string> {
    [ url,
      "-o", Join(outputDir, RunPrefix(now) + TitlePattern(f)),
      "--format", Selector(f),
      "--no-playlist",
      "--max-filesize", MaxFilesize(f),
      "--force-overwrites",
      "--extractor-args", "youtube:player_client=android" ]
  }

  /** Position of the first occurrence of option `flag` from `from` on
      that has a value after it. */
  function OptionIndex(args: seq<string>, flag: string, from: nat): (r: Option<nat>)
    ensures r.Some? ==> from <= r.value < |args| - 1 && args[r.value] == flag
    ensures r.Some? ==> forall k | from <= k < r.value :: args[k] != flag
    ensures r.None? ==> forall k | from <= k < |args| - 1 :: args[k] != flag
    decreases |args| - from
  {
    if from + 1 >= |args| then None
    else if args[from] == flag then Some(from)
    else OptionIndex(args, flag, from + 1)
  }

  /** The value given to option `flag`: the argument after its first
      occurrence among the options that follow the URL. */
  function OptionValue(args: seq<string>, flag: string): Option<string> {
    match OptionIndex(args, flag, 1)
    case None => None
    case Some(i) => Some(args[i + 1])
  }

  /** Both formats put the URL first and pass the same switches. */
  lemma {:induction false} YtDlpArgsCommon(url: string, outputDir: string, now: nat, f: Format)
    ensures var args := YtDlpArgs(url, outputDir, now, f);
      && args[0] == url
      && "--no-playlist" in args[1..] && "--force-overwrites" in args[1..]
  {
    var args := YtDlpArgs(url, outputDir, now, f);
    assert args[1..][4] == "--no-playlist" && args[1..][7] == "--force-overwrites";
  }

  /** The format selector and size cap of each format. */
  lemma {:induction false} YtDlpArgsLimits(url: string, outputDir: string, now: nat, f: Format)
    ensures var args := YtDlpArgs(url, outputDir, now, f);
      && OptionValue(args, "--format")
         == Some(if f == Audio then "bestaudio[ext=m4a]/bestaudio/best" else "best[ext=mp4]/best")
      && OptionValue(args, "--max-filesize") == Some(if f == Audio then "100M" else "500M")
  {
    var args := YtDlpArgs(url, outputDir, now, f);
    // the template ends in "%(ext)s", so it is none of the flags looked up
    TemplateEnd(outputDir, now, f);
    assert Selector(f)[0] == 'b';
    LimitOptions(args, args[2], Selector(f), MaxFilesize(f));
  }

  /** The output template ends in the `s` of `%(ext)s`. */
  lemma {:induction false} TemplateEnd(outputDir: string, now: nat, f: Format)
    ensures var t := Join(outputDir, RunPrefix(now) + TitlePattern(f));
      t != [] && t[|t| - 1] == 's'
  {
    var name := RunPrefix(now) + TitlePattern(f);
    RunFileNameHasNoSlash(now, f);
    JoinPlain(outputDir, name);
    assert name[|name| - 1] == TitlePattern(f)[|TitlePattern(f)| - 1] == 's';
  }

  /** Where the two limits sit in an argument list shaped like yt-dlp's. */
  lemma {:induction false} LimitOptions(args: seq<string>, template: string, selector: string, cap: string)
    requires template != [] && template[|template| - 1] == 's'
    requires selector != [] && selector[0] == 'b'
    requires |args| > 7 && args[1] == "-o" && args[2] == template && args[3] == "--format"
    requires args[4] == selector && args[5] == "--no-playlist" && args[6] == "--max-filesize" && args[7] == cap
    ensures OptionValue(args, "--format") == Some(selector)
    ensures OptionValue(args, "--max-filesize") == Some(cap)
  {
    OptionIndexFinds(args, "--format", 1, 3);
    OptionIndexFinds(args, "--max-filesize", 1, 6);
  }

  /** The first occurrence of a flag from `from` on is where the lookup stops. */
  lemma {:induction false} OptionIndexFinds(args: seq<string>, flag: string, from: nat, i: nat)
    requires from <= i < |args| - 1 && args[i] == flag
    requires forall k | from <= k < i :: args[k] != flag
    ensures OptionIndex(args, flag, from) == Some(i)
    decreases i - from
  {
    if from < i {
      OptionIndexFinds(args, flag, from + 1, i);
    }
  }

  /** The output template names the file with the run prefix, which is
      what the directory scan looks for. */
  lemma {:induction false} YtDlpArgsTemplate(url: string, outputDir: string, now: nat, f: Format)
    ensures var args := YtDlpArgs(url, outputDir, now, f);
      && OptionValue(args, "-o").Some?
      && Basename(OptionValue(args, "-o").value)
         == RunPrefix(now) + (if f == Audio then "%(title)s.%(ext)s" else "%(title).50s.%(ext)s")
  {
    var name := RunPrefix(now) + TitlePattern(f);
    var args := YtDlpArgs(url, outputDir, now, f);
    assert OptionIndex(args, "-o", 1) == Some(1);
    assert OptionValue(args, "-o") == Some(Join(outputDir, name));
    RunFileNameHasNoSlash(now, f);
    BasenameOfJoin(outputDir, name);
  }

  lemma {:induction false} TitlePatternHasNoSlash(f: Format)
    ensures forall i | 0 <= i < |TitlePattern(f)| :: TitlePattern(f)[i] != '/'
  {
  }

  lemma {:induction false} RunFileNameHasNoSlash(now: nat, f: Format)
    ensures '/' !in RunPrefix(now) + TitlePattern(f)
    ensures PlainName(RunPrefix(now) + TitlePattern(f))
  {
    var digits := Decimal(now);
    var t := TitlePattern(f);
    var name := digits + "_" + t;
    TitlePatternHasNoSlash(f);
    forall i | 0 <= i < |name|
      ensures name[i] != '/'
    {
      if i < |digits| {
        assert IsDigit(digits[i]);
      } else if i > |digits| {
        assert name[i] == t[i - |digits| - 1];
      }
    }
  }

  /** Audio and video runs are started with different arguments. */
  lemma {:induction false} FormatsGiveDifferentArgs(url: string, outputDir: string, now: nat)
    ensures YtDlpArgs(url, outputDir, now, Audio) != YtDlpArgs(url, outputDir, now, Video)
  {
    assert YtDlpArgs(url, outputDir, now, Audio)[4] != YtDlpArgs(url, outputDir, now, Video)[4];
  }

  // ---------------------------------------------------------------------
  // Destination announcements in stdout

  /** `\s+(.+)` matched at the start of `rest`: the greedy white-space run
      gives back characters until the greedy `.+` (no line terminator) can
      take at least one; the capture is what `.+` took. */
  function SpaceThenLine(rest: string): (r: Option<string>)
    ensures r.Some? ==> r.value != [] && forall i | 0 <= i < |r.value| :: !IsLineTerminator(r.value[i])
  {
    BackOff(rest, Run(rest, IsSpace))
  }

  function BackOff(rest: string, k: nat): (r: Option<string>)
    requires k <= |rest|
    ensures r.Some? ==> r.value != [] && forall i | 0 <= i < |r.value| :: !IsLineTerminator(r.value[i])
    decreases k
  {
    if k == 0 then None
    else if k < |rest| && !IsLineTerminator(rest[k]) then
      var tail := rest[k..];
      Some(tail[..Run(tail, NotLineTerminator)])
    else BackOff(rest, k - 1)
  }

  /** The capture of `line.match(/<marker>\s+(.+)/)`: the leftmost place
      where the marker is followed by a match of `\s+(.+)`. */
  function LabelCapture(line: string, marker: string): (r: Option<string>)
    ensures r.Some? ==> Contains(line, marker) && r.value != []
    ensures r.Some? ==> forall i | 0 <= i < |r.value| :: !IsLineTerminator(r.value[i])
    decreases |line|
  {
    if line == [] then None
    else if IsPrefix(marker, line) && SpaceThenLine(line[|marker|..]).Some? then
      ContainsPrefix(marker, line);
      SpaceThenLine(line[|marker|..])
    else
      var r := LabelCapture(line[1..], marker);
      if r.Some? then
        ContainsInTail(line, marker);
        r
      else r
  }

  /** `\s+(.+)` before a line: the white space is skipped and the rest of
      the line is taken. */
  lemma {:induction false} SpaceThenLineOf(ws: string, p: string, rest: string)
    requires ws != [] && AllSpace(ws)
    requires p != [] && !IsSpace(p[0]) && forall i | 0 <= i < |p| :: !IsLineTerminator(p[i])
    requires rest == [] || IsLineTerminator(rest[0])
    ensures SpaceThenLine(ws + p + rest) == Some(p)
  {
    var s := ws + (p + rest);
    assert ws + p + rest == s;
    RunOf(ws, p + rest, IsSpace);
    var k := |ws|;
    assert s[k] == p[0];
    var tail := s[k..];
    assert tail == p + rest;
    RunOf(p, rest, NotLineTerminator);
    assert tail[..|p|] == p;
  }

  /** Positions where the marker does not start are passed over. */
  lemma {:induction false} LabelCaptureSkips(pre: string, s: string, marker: string)
    requires forall i | 0 <= i < |pre| :: !IsPrefix(marker, (pre + s)[i..])
    ensures LabelCapture(pre + s, marker) == LabelCapture(s, marker)
  {
    if pre == [] {
      assert pre + s == s;
    } else {
      var line := pre + s;
      assert line[0..] == line;
      assert line[1..] == pre[1..] + s;
      forall i | 0 <= i < |pre[1..]|
        ensures !IsPrefix(marker, (pre[1..] + s)[i..])
      {
        assert (pre[1..] + s)[i..] == line[i + 1..];
      }
      LabelCaptureSkips(pre[1..], s, marker);
    }
  }

  /** What `<marker>\s+(.+)` captures: the rest of the line after the first
      marker and the white space behind it. The marker's last character
      must not occur earlier in it, so that no occurrence can overlap the
      text in front. */
  lemma {:induction false} LabelCaptureOf(pre: string, marker: string, ws: string, p: string, rest: string)
    requires marker != [] && marker[|marker| - 1] !in marker[..|marker| - 1]
    requires !Contains(pre, marker)
    requires ws != [] && AllSpace(ws)
    requires p != [] && !IsSpace(p[0]) && forall i | 0 <= i < |p| :: !IsLineTerminator(p[i])
    requires rest == [] || IsLineTerminator(rest[0])
    ensures LabelCapture(pre + marker + ws + p + rest, marker) == Some(p)
  {
    var after := ws + p + rest;
    var s := marker + after;
    assert pre + marker + ws + p + rest == pre + s;
    forall i | 0 <= i < |pre|
      ensures !IsPrefix(marker, (pre + s)[i..])
    {
      NoOccurrenceInside(pre, marker, after, i);
      assert pre + marker + after == pre + s;
    }
    LabelCaptureSkips(pre, s, marker);
    assert s[..|marker|] == marker;
    assert s[|marker|..] == after;
    SpaceThenLineOf(ws, p, rest);
  }

  /** Both labels end in a `:` that occurs nowhere else in them. */
  lemma {:induction false} LabelsEndUniquely()
    ensures DestinationLabel[|DestinationLabel| - 1] !in DestinationLabel[..|DestinationLabel| - 1]
    ensures AlreadyLabel[|AlreadyLabel| - 1] !in AlreadyLabel[..|AlreadyLabel| - 1]
  {
    assert forall i | 0 <= i < |DestinationLabel| - 1 :: DestinationLabel[i] != ':';
    assert forall i | 0 <= i < |AlreadyLabel| - 1 :: AlreadyLabel[i] != ':';
  }

  /** A chunk with one `Destination:` line and no `Already downloaded:`
      announces the path written on that line. */
  lemma {:induction false} DestinationLineAnnounced(pre: string, ws: string, p: string, rest: string)
    requires !Contains(pre, DestinationLabel)
    requires !Contains(pre + DestinationLabel + ws + p + rest, AlreadyLabel)
    requires ws != [] && AllSpace(ws)
    requires p != [] && !IsSpace(p[0]) && forall i | 0 <= i < |p| :: !IsLineTerminator(p[i])
    requires rest == [] || IsLineTerminator(rest[0])
    ensures ChunkCapture(pre + DestinationLabel + ws + p + rest) == Some(p)
  {
    LabelsEndUniquely();
    LabelCaptureOf(pre, DestinationLabel, ws, p, rest);
  }

  const DestinationLabel := "Destination:"
  const AlreadyLabel := "Already downloaded:"

  /** The path one stdout chunk announces: the `Destination:` capture is
      assigned first and an `Already downloaded:` capture overwrites it. */
  function ChunkCapture(chunk: string): Option<string> {
    var already := LabelCapture(chunk, AlreadyLabel);
    if already.Some? then already else LabelCapture(chunk, DestinationLabel)
  }

  /** The path announced by the last chunk that announces one. */
  function LastCapture(chunks: seq<string>): Option<string> {
    LastSome(chunks, ChunkCapture)
  }

  /** No path is captured exactly when no chunk announces one. */
  lemma {:induction false} LastCaptureAbsent(chunks: seq<string>)
    ensures LastCapture(chunks).None? <==> forall j | 0 <= j < |chunks| :: ChunkCapture(chunks[j]).None?
  {
    LastSomeAbsent(chunks, ChunkCapture);
  }

  /** A captured path is the announcement of the last chunk that makes one. */
  lemma {:induction false} LastCaptureIsLastAnnouncement(chunks: seq<string>)
    requires LastCapture(chunks).Some?
    ensures exists j | 0 <= j < |chunks| ::
        && ChunkCapture(chunks[j]) == LastCapture(chunks)
        && forall k | j < k < |chunks| :: ChunkCapture(chunks[k]).None?
  {
    LastSomeIsLast(chunks, ChunkCapture);
  }

  /** The stdout handler, chunk by chunk, as the process streams. */
  method CaptureStream(chunks: seq<string>) returns (captured: Option<string>)
    ensures captured == LastCapture(chunks)
  {
    captured := None;
    var i := 0;
    while i < |chunks|
      invariant 0 <= i <= |chunks|
      invariant captured == LastCapture(chunks[..i])
    {
      assert chunks[..i + 1][..i] == chunks[..i];
      var dest := LabelCapture(chunks[i], DestinationLabel);
      if dest.Some? {
        captured := dest;
      }
      var already := LabelCapture(chunks[i], AlreadyLabel);
      if already.Some? {
        captured := already;
      }
      i := i + 1;
    }
    assert chunks[..i] == chunks;
  }

  // ---------------------------------------------------------------------
  // Directory scan and resolution

  /** The fallback at close: the first listed entry named with the run
      prefix, joined onto the directory; a listing that threw finds nothing. */
  function DirectoryScan(listing: Option<seq<string>>, outputDir: string, now: nat): (r: Option<string>)
    ensures r.Some? ==> listing.Some? && exists i | 0 <= i < |listing.value| ::
      && r.value == Join(outputDir, listing.value[i])
      && IsPrefix(RunPrefix(now), listing.value[i])
      && forall j | 0 <= j < i :: !IsPrefix(RunPrefix(now), listing.value[j])
    ensures r.None? ==> listing.None? || forall f | f in listing.value :: !IsPrefix(RunPrefix(now), f)
  {
    match listing
    case None => None
    case Some(files) =>
      match FirstWhere(files, (f: string) => IsPrefix(RunPrefix(now), f))
      case None => None
      case Some(i) => Some(Join(outputDir, files[i]))
  }

  /** A captured path always wins; the directory is scanned only without one. */
  function ResolveDestination(run: RunOutcome, outputDir: string, now: nat): (r: Option<string>)
    ensures LastCapture(run.stdoutChunks).Some? ==> r == LastCapture(run.stdoutChunks)
    ensures LastCapture(run.stdoutChunks).None? ==> r == DirectoryScan(run.listing, outputDir, now)
  {
    var captured := LastCapture(run.stdoutChunks);
    if captured.Some? then captured else DirectoryScan(run.listing, outputDir, now)
  }

  /** With nothing captured and a single file of the run in the directory,
      that file is the one resolved. */
  lemma {:induction false} ScanFindsTheRunFile(run: RunOutcome, outputDir: string, now: nat, name: string)
    requires LastCapture(run.stdoutChunks).None?
    requires run.listing.Some?
    requires IsPrefix(RunPrefix(now), name) && name in run.listing.value
    requires forall f | f in run.listing.value && f != name :: !IsPrefix(RunPrefix(now), f)
    ensures ResolveDestination(run, outputDir, now) == Some(Join(outputDir, name))
  {
    var files := run.listing.value;
    var r := DirectoryScan(run.listing, outputDir, now);
    assert r.Some? by {
      var k :| 0 <= k < |files| && files[k] == name;
    }
  }

  // ---------------------------------------------------------------------
  // Stderr filtering

  const DeprecationStart := "Deprecated Feature:"
  const DeprecationEnd := "deprecated\n"

  /** `.*?deprecated\n` from position `k` of `s`: the shortest run of
      non-line-terminators followed by `deprecated\n`; the end of the match. */
  function LazyEnd(s: string, k: nat): (r: Option<nat>)
    requires k <= |s|
    ensures r.Some? ==> k + |DeprecationEnd| <= r.value <= |s|
    decreases |s| - k
  {
    if IsPrefix(DeprecationEnd, s[k..]) then Some(k + |DeprecationEnd|)
    else if k < |s| && !IsLineTerminator(s[k]) then LazyEnd(s, k + 1)
    else None
  }

  /** Length of a `Deprecated Feature:.*?deprecated\n` match at the start of `s`. */
  function DeprecationSpan(s: string): (r: Option<nat>)
    ensures r.Some? ==> IsPrefix(DeprecationStart, s)
    ensures r.Some? ==> |DeprecationStart| + |DeprecationEnd| <= r.value <= |s|
  {
    if IsPrefix(DeprecationStart, s) then LazyEnd(s, |DeprecationStart|) else None
  }

  /** `stderr.replace(/Deprecated Feature:.*?deprecated\n/g, '')`: left to
      right, every match is cut out and scanning resumes after it. */
  function CleanStderr(s: string): (r: string)
    ensures |r| <= |s|
    decreases |s|
  {
    if s == [] then []
    else match DeprecationSpan(s)
      case Some(n) => CleanStderr(s[n..])
      case None => [s[0]] + CleanStderr(s[1..])
  }

  /** Stderr without any deprecation notice passes through unchanged. */
  lemma {:induction false} CleanStderrKeepsOrdinaryText(s: string)
    requires !Contains(s, DeprecationStart)
    ensures CleanStderr(s) == s
  {
    if s != [] {
      assert !IsPrefix(DeprecationStart, s[0..]);
      assert !Contains(s[1..], DeprecationStart) by {
        forall i | 0 <= i <= |s[1..]| - |DeprecationStart|
          ensures !IsPrefix(DeprecationStart, s[1..][i..])
        {
          assert s[1..][i..] == s[i + 1..];
        }
      }
      CleanStderrKeepsOrdinaryText(s[1..]);
    }
  }

  /** Only the last character of `deprecated\n` ends a line. */
  lemma {:induction false} DeprecationEndTerminates()
    ensures IsLineTerminator(DeprecationEnd[|DeprecationEnd| - 1])
    ensures forall i | 0 <= i < |DeprecationEnd| - 1 :: !IsLineTerminator(DeprecationEnd[i])
  {
  }

  /** The lazy scan from `k` stops at the first `deprecated\n`, found at
      `m`, when no line ends in between. */
  lemma {:induction false} LazyEndSkipsNotice(s: string, k: nat, m: nat)
    requires k <= m <= |s| && IsPrefix(DeprecationEnd, s[m..])
    requires forall i | k <= i < m :: !IsLineTerminator(s[i])
    ensures LazyEnd(s, k) == Some(m + |DeprecationEnd|)
    decreases m - k
  {
    if k == m {
      assert IsPrefix(DeprecationEnd, s[k..]);
    } else {
      assert !IsPrefix(DeprecationEnd, s[k..]) by {
        var last := |DeprecationEnd| - 1;
        DeprecationEndTerminates();
        var at := k + last;
        if at >= m {
          assert s[at] == s[m..][at - m] == DeprecationEnd[at - m];
        }
        assert !IsLineTerminator(s[at]);
        assert s[k..][last] == s[at];
      }
      assert !IsLineTerminator(s[k]);
      LazyEndSkipsNotice(s, k + 1, m);
    }
  }

  /** A one-line `Deprecated Feature: ... deprecated` notice at the start of
      stderr is removed and nothing after it is affected. */
  lemma {:induction false} CleanStderrDropsNotice(x: string, rest: string)
    requires forall i | 0 <= i < |x| :: !IsLineTerminator(x[i])
    ensures CleanStderr(DeprecationStart + x + DeprecationEnd + rest) == CleanStderr(rest)
  {
    var s := DeprecationStart + x + DeprecationEnd + rest;
    var k := |DeprecationStart|;
    var m := k + |x|;
    assert s[..k] == DeprecationStart;
    assert s[m..][..|DeprecationEnd|] == DeprecationEnd;
    assert forall i | k <= i < m :: s[i] == x[i - k];
    LazyEndSkipsNotice(s, k, m);
    assert s[m + |DeprecationEnd|..] == rest;
  }

  /** Text in front of the first notice is kept as it is. */
  lemma {:induction false} CleanStderrKeepsPrefix(x: string, s: string)
    requires forall i | 0 <= i < |x| :: !IsPrefix(DeprecationStart, (x + s)[i..])
    ensures CleanStderr(x + s) == x + CleanStderr(s)
  {
    if x == [] {
      assert x + s == s;
    } else {
      var t := x + s;
      assert t[0..] == t;
      assert DeprecationSpan(t).None?;
      assert t[1..] == x[1..] + s;
      forall i | 0 <= i < |x[1..]|
        ensures !IsPrefix(DeprecationStart, (x[1..] + s)[i..])
      {
        assert (x[1..] + s)[i..] == t[i + 1..];
      }
      CleanStderrKeepsPrefix(x[1..], s);
      assert [x[0]] + (x[1..] + CleanStderr(s)) == x + CleanStderr(s);
    }
  }

  /** The first notice is cut out wherever it stands, and everything in
      front of it stays. */
  lemma {:induction false} CleanStderrDropsLaterNotice(x: string, y: string, rest: string)
    requires !Contains(x, DeprecationStart)
    requires forall i | 0 <= i < |y| :: !IsLineTerminator(y[i])
    ensures CleanStderr(x + DeprecationStart + y + DeprecationEnd + rest) == x + CleanStderr(rest)
  {
    var s := DeprecationStart + y + DeprecationEnd + rest;
    assert s[..|DeprecationStart|] == DeprecationStart;
    NoNoticeBefore(x, s);
    CleanStderrKeepsPrefix(x, s);
    CleanStderrDropsNotice(y, rest);
    ConcatAssoc(x, DeprecationStart, y);
    ConcatAssoc(x, DeprecationStart + y, DeprecationEnd);
    ConcatAssoc(x, DeprecationStart + y + DeprecationEnd, rest);
  }

  /** No notice starts inside text that holds none, even where that text
      meets the notice that follows it. */
  lemma {:induction false} NoNoticeBefore(x: string, s: string)
    requires !Contains(x, DeprecationStart) && IsPrefix(DeprecationStart, s)
    ensures forall i | 0 <= i < |x| :: !IsPrefix(DeprecationStart, (x + s)[i..])
  {
    var after := s[|DeprecationStart|..];
    assert s == DeprecationStart + after;
    ConcatAssoc(x, DeprecationStart, after);
    assert forall i | 0 <= i < |DeprecationStart| - 1 :: DeprecationStart[i] != ':';
    forall i | 0 <= i < |x|
      ensures !IsPrefix(DeprecationStart, (x + s)[i..])
    {
      NoOccurrenceInside(x, DeprecationStart, after, i);
    }
  }

  // ---------------------------------------------------------------------
  // One yt-dlp attempt

  const NoFileFound := "No video file found."

  function ExitCodeText(code: Option<int>): string {
    match code
    case None => "null"
    case Some(c) => IntText(c)
  }

  /** The rejection message: exit code, then the filtered stderr or a fixed
      text when nothing is left of it. */
  function FailureMessage(code: Option<int>, stderr: string): (m: string)
    ensures IsPrefix("yt-dlp exited with code " + ExitCodeText(code) + ". Stderr: ", m)
    ensures CleanStderr(stderr) != [] ==> IsSuffix(CleanStderr(stderr), m)
    ensures CleanStderr(stderr) == [] ==> IsSuffix(NoFileFound, m)
  {
    var clean := CleanStderr(stderr);
    "yt-dlp exited with code " + ExitCodeText(code) + ". Stderr: " + (if clean == [] then NoFileFound else clean)
  }

  function MediaTypeOf(f: Format): MediaType {
    match f
    case Audio => AudioMedia
    case Video => VideoMedia
  }

  /** The `close` handler of `downloadWithYtDlp`: success exactly when the
      resolved path exists, whatever the exit code. */
  function OnClose(run: RunOutcome, outputDir: string, f: Format, env: Environment): (r: Result<DownloadResult>)
    ensures var dest := ResolveDestination(run, outputDir, env.ytdlpNow);
      && (r.Ok? <==> dest.Some? && env.fs.existsAt(dest.value))
      && (r.Ok? ==> r.value == DownloadResult(dest.value, Basename(dest.value), MediaTypeOf(f), env.fs.sizeAt(dest.value)))
      && (r.Err? ==> r.message == FailureMessage(run.exitCode, run.stderr))
  {
    var dest := ResolveDestination(run, outputDir, env.ytdlpNow);
    if dest.Some? && env.fs.existsAt(dest.value) then
      Ok(DownloadResult(dest.value, Basename(dest.value), MediaTypeOf(f), env.fs.sizeAt(dest.value)))
    else
      Err(FailureMessage(run.exitCode, run.stderr))
  }

  /** `downloadWithYtDlp`: the promise settles only in the process's
      `close` handler, and nothing ends a process that never closes. */
  function DownloadWithYtDlp(url: string, outputDir: string, f: Format, env: Environment): (r: Promise<Result<DownloadResult>>)
    ensures var run := env.ytdlp(YtDlpArgs(url, outputDir, env.ytdlpNow, f));
      && (r.NeverSettles? <==> run.NeverSettles?)
      && (run.Settles? ==> r == Settles(OnClose(run.value, outputDir, f, env)))
  {
    match env.ytdlp(YtDlpArgs(url, outputDir, env.ytdlpNow, f))
    case NeverSettles => NeverSettles
    case Settles(run) => Settles(OnClose(run, outputDir, f, env))
  }

  // ---------------------------------------------------------------------
  // og:image fallback

  predicate IsOgImage(t: MetaTag) {
    t.property == Some("og:image")
  }

  predicate IsTwitterImage(t: MetaTag) {
    t.name == Some("twitter:image")
  }

  /** `$(selector).attr('content')`: the content of the first matching tag. */
  function FirstContent(tags: seq<MetaTag>, selects: MetaTag -> bool): Option<string> {
    match FirstWhere(tags, selects)
    case None => None
    case Some(i) => tags[i].content
  }

  predicate Truthy(o: Option<string>) {
    o.Some? && o.value != ""
  }

  /** The preview image URL: og:image if truthy, else twitter:image if truthy. */
  function PreviewImage(tags: seq<MetaTag>): (r: Option<string>)
    ensures r.Some? ==> r.value != ""
    ensures r.Some? ==> exists i | 0 <= i < |tags| :: tags[i].content == r && (IsOgImage(tags[i]) || IsTwitterImage(tags[i]))
  {
    var og := FirstContent(tags, IsOgImage);
    if Truthy(og) then og
    else
      var tw := FirstContent(tags, IsTwitterImage);
      if Truthy(tw) then tw else None
  }

  /** A usable og:image is taken whatever twitter:image says. */
  lemma {:induction false} OgImagePreferred(tags: seq<MetaTag>, i: nat)
    requires i < |tags| && IsOgImage(tags[i]) && Truthy(tags[i].content)
    requires forall j | 0 <= j < i :: !IsOgImage(tags[j])
    ensures PreviewImage(tags) == tags[i].content
  {
    var k := FirstWhere(tags, IsOgImage);
    assert k == Some(i);
  }

  /** A page with no og:image yields its twitter:image. */
  lemma {:induction false} TwitterImageWithoutOgImage(tags: seq<MetaTag>, i: nat)
    requires forall j | 0 <= j < |tags| :: !IsOgImage(tags[j])
    requires i < |tags| && IsTwitterImage(tags[i]) && Truthy(tags[i].content)
    requires forall j | 0 <= j < i :: !IsTwitterImage(tags[j])
    ensures PreviewImage(tags) == tags[i].content
  {
    var k := FirstWhere(tags, IsTwitterImage);
    assert k == Some(i);
  }

  /** Neither tag usable: no image. */
  lemma {:induction false} NoPreviewWithoutTags(tags: seq<MetaTag>)
    requires forall j | 0 <= j < |tags| :: !IsOgImage(tags[j]) && !IsTwitterImage(tags[j])
    ensures PreviewImage(tags).None?
  {
  }

  const DefaultExtension := ".jpg"

  /** The extension of the image URL with its query removed, `.jpg` when
      that is empty or longer than five characters. */
  function ImageExtension(imageUrl: string): (e: string)
    ensures 1 <= |e| <= 5 && e[0] == '.'
    ensures e == DefaultExtension || (IsSuffix(e, Basename(BeforeFirst(imageUrl, '?'))) && '.' !in e[1..])
    ensures var ext := Extname(BeforeFirst(imageUrl, '?'));
      (1 <= |ext| <= 5 ==> e == ext) && (ext == [] || |ext| > 5 ==> e == DefaultExtension)
  {
    var ext := Extname(BeforeFirst(imageUrl, '?'));
    if ext == "" || |ext| > 5 then DefaultExtension else ext
  }

  /** The extension never carries a query or a directory into the file name. */
  lemma {:induction false} ImageExtensionIsPlain(imageUrl: string)
    ensures forall i | 0 <= i < |ImageExtension(imageUrl)| ::
      ImageExtension(imageUrl)[i] != '/' && ImageExtension(imageUrl)[i] != '?'
  {
    var path := BeforeFirst(imageUrl, '?');
    var ext := Extname(path);
    if ext == "" || |ext| > 5 {
      assert forall i | 0 <= i < |DefaultExtension| :: DefaultExtension[i] != '/' && DefaultExtension[i] != '?';
    } else {
      ExtnameChars(path);
      assert forall i | 0 <= i < |ext| :: ext[i] in path;
    }
  }

  const NoPreviewImage := "Could not find og:image or twitter:image on page"

  /** The name the fallback saves the image under: `<now>_image<ext>`, a
      name of the run whose extension is the guessed one. */
  function ImageFileName(image: string, now: nat): (name: string)
    ensures PlainName(name)
    ensures IsPrefix(RunPrefix(now), name)
    ensures Extension(name) == ImageExtension(image)
  {
    ImageExtensionShape(image);
    StampedExtension(now, ImageExtension(image));
    RunPrefix(now) + "image" + ImageExtension(image)
  }

  /** The guessed extension is one dot and then neither dots nor slashes. */
  lemma {:induction false} ImageExtensionShape(image: string)
    ensures var ext := ImageExtension(image);
      ext != [] && ext[0] == '.' && '.' !in ext[1..] && '/' !in ext
  {
    var ext := ImageExtension(image);
    ImageExtensionIsPlain(image);
    if ext == DefaultExtension {
      DefaultExtensionShape();
    }
  }

  lemma {:induction false} DefaultExtensionShape()
    ensures '.' !in DefaultExtension[1..]
  {
    assert DefaultExtension[1..] == "jpg";
  }

  /** The run prefix and `image` in front of an extension. */
  lemma {:induction false} StampedExtension(now: nat, ext: string)
    requires ext != [] && ext[0] == '.' && '.' !in ext[1..] && '/' !in ext
    ensures var name := RunPrefix(now) + "image" + ext;
      && PlainName(name) && IsPrefix(RunPrefix(now), name) && Extension(name) == ext
  {
    var p := RunPrefix(now) + "image";
    StampedWordIsPlain(Decimal(now), "_image");
    var name := p + ext;
    assert name[0] == p[0];
    assert '/' !in name by {
      forall i | 0 <= i < |name|
        ensures name[i] != '/'
      {
        if i >= |p| {
          assert name[i] == ext[i - |p|];
        }
      }
    }
    assert name[..|RunPrefix(now)|] == RunPrefix(now);
    LastDotOfExtension(ext);
    ExtensionAfterPrefix(p, ext);
  }

  /** Digits followed by a word without dots or slashes. */
  lemma {:induction false} StampedWordIsPlain(digits: string, word: string)
    requires digits != [] && AllDigits(digits)
    requires forall i | 0 <= i < |word| :: word[i] != '/' && word[i] != '.'
    ensures var p := digits + word;
      p != [] && p[0] != '.' && '.' !in p && '/' !in p
  {
    var p := digits + word;
    forall i | 0 <= i < |p|
      ensures p[i] != '/' && p[i] != '.'
    {
      if i < |digits| {
        assert IsDigit(digits[i]);
      } else {
        assert p[i] == word[i - |digits|];
      }
    }
  }

  /** An extension's only dot is its first character. */
  lemma {:induction false} LastDotOfExtension(ext: string)
    requires ext != [] && ext[0] == '.' && '.' !in ext[1..]
    ensures LastDot(ext) == Some(0)
  {
  }

  /** `scrapeOgImage`: the page's preview image saved as `<now>_image<ext>`.
      With a preview image found, the outcome is the image transfer's: a
      saved image is the result, a failed transfer its error, and a
      stalled one leaves the promise pending for ever. */
  function ScrapeOgImage(url: string, outputDir: string, env: Environment): (r: Promise<Result<DownloadResult>>)
    ensures env.fetchPage(url).Err? ==> r == Settles(Err(env.fetchPage(url).message))
    ensures env.fetchPage(url).Ok? && PreviewImage(env.fetchPage(url).value).None? ==> r == Settles(Err(NoPreviewImage))
    ensures env.fetchPage(url).Ok? && PreviewImage(env.fetchPage(url).value).Some? ==>
      var image := PreviewImage(env.fetchPage(url).value).value;
      var name := ImageFileName(image, env.scrapeNow);
      var path := Join(outputDir, name);
      && (env.saveImage(image, path).Saved? <==> r.Settles? && r.value.Ok?)
      && (env.saveImage(image, path).TransferFailed? ==> r == Settles(Err(env.saveImage(image, path).message)))
      && (env.saveImage(image, path).Stalled? <==> r.NeverSettles?)
      && (r.Settles? && r.value.Ok? ==>
            r.value.value == DownloadResult(path, name, ImageMedia, env.fs.sizeAt(path)))
  {
    match env.fetchPage(url)
    case Err(m) => Settles(Err(m))
    case Ok(tags) =>
      match PreviewImage(tags)
      case None => Settles(Err(NoPreviewImage))
      case Some(image) =>
        var filename := ImageFileName(image, env.scrapeNow);
        var filePath := Join(outputDir, filename);
        match env.saveImage(image, filePath)
        case TransferFailed(m) => Settles(Err(m))
        case Stalled => NeverSettles
        case Saved => Settles(Ok(DownloadResult(filePath, filename, ImageMedia, env.fs.sizeAt(filePath))))
  }

  /** The saved image sits in the output directory under its own name. */
  lemma {:induction false} ScrapedImageInOutputDir(url: string, outputDir: string, env: Environment)
    requires var r := ScrapeOgImage(url, outputDir, env); r.Settles? && r.value.Ok?
    ensures var res := ScrapeOgImage(url, outputDir, env).value.value;
      Basename(res.filePath) == res.title
  {
    var image := PreviewImage(env.fetchPage(url).value).value;
    BasenameOfJoin(outputDir, ImageFileName(image, env.scrapeNow));
  }

  // ---------------------------------------------------------------------
  // Orchestration

  const AudioUnavailable := "Audio download failed. Scraping fallback not available for audio."

  function CombinedFailure(primary: string, scrape: string): (m: string)
    ensures Contains(m, primary) && Contains(m, scrape)
  {
    var head := "Failed to download media. yt-dlp error: ";
    var mid := ". Scraping error: ";
    ContainsInfix(head, primary, mid + scrape);
    assert head + primary + mid + scrape == head + primary + (mid + scrape);
    ContainsInfix(head + primary + mid, scrape, "");
    assert head + primary + mid + scrape == head + primary + mid + scrape + "";
    head + primary + mid + scrape
  }

  /** `downloadMedia`: yt-dlp first, waiting for ever when it never closes;
      when it fails, audio requests fail with a fixed text and video
      requests fall back to the scraper, failing with both messages when
      that fails too, and waiting for ever when that never settles. */
  function DownloadMedia(url: string, outputDir: string, f: Format, env: Environment): (r: Promise<Result<DownloadResult>>)
    ensures var p := DownloadWithYtDlp(url, outputDir, f, env);
      var scrape := ScrapeOgImage(url, outputDir, env);
      && (p.NeverSettles? ==> r.NeverSettles?)
      && (p.Settles? && p.value.Ok? ==> r == p)
      && (p.Settles? && p.value.Err? && f == Audio ==> r == Settles(Err(AudioUnavailable)))
      && (p.Settles? && p.value.Err? && f == Video ==> (r.NeverSettles? <==> scrape.NeverSettles?))
      && (p.Settles? && p.value.Err? && f == Video && scrape.Settles? && scrape.value.Ok? ==> r == scrape)
      && (p.Settles? && p.value.Err? && f == Video && scrape.Settles? && scrape.value.Err? ==>
            r.Settles? && r.value.Err?
            && Contains(r.value.message, p.value.message) && Contains(r.value.message, scrape.value.message))
  {
    match DownloadWithYtDlp(url, outputDir, f, env)
    case NeverSettles => NeverSettles
    case Settles(Ok(res)) => Settles(Ok(res))
    case Settles(Err(primary)) =>
      if f == Audio then Settles(Err(AudioUnavailable))
      else
        match ScrapeOgImage(url, outputDir, env)
        case NeverSettles => NeverSettles
        case Settles(Ok(res)) => Settles(Ok(res))
        case Settles(Err(scrape)) => Settles(Err(CombinedFailure(primary, scrape)))
  }

  /** The image transfer of the video fallback stalls: yt-dlp closed
      without a file, the page names a preview image, and its stream broke
      off. */
  predicate FallbackStalls(url: string, outputDir: string, env: Environment) {
    && DownloadWithYtDlp(url, outputDir, Video, env).Settles?
    && DownloadWithYtDlp(url, outputDir, Video, env).value.Err?
    && env.fetchPage(url).Ok? && PreviewImage(env.fetchPage(url).value).Some?
    && var image := PreviewImage(env.fetchPage(url).value).value;
       env.saveImage(image, Join(outputDir, ImageFileName(image, env.scrapeNow))) == Stalled
  }

  /** A download waits for ever exactly when yt-dlp never closes, or when
      the video fallback's image transfer stalls. */
  lemma {:induction false} DownloadStallCases(url: string, outputDir: string, f: Format, env: Environment)
    ensures DownloadMedia(url, outputDir, f, env).NeverSettles? <==>
      env.ytdlp(YtDlpArgs(url, outputDir, env.ytdlpNow, f)).NeverSettles?
      || (f == Video && FallbackStalls(url, outputDir, env))
  {
    var p := DownloadWithYtDlp(url, outputDir, f, env);
    if p.Settles? && p.value.Err? && f == Video {
      var scrape := ScrapeOgImage(url, outputDir, env);
      assert scrape.NeverSettles? <==> FallbackStalls(url, outputDir, env);
    }
  }

  /** An audio request never consults the scraper: two environments that
      agree on the yt-dlp run and the disk give the same outcome. */
  lemma {:induction false} AudioNeverScrapes(url: string, outputDir: string, env1: Environment, env2: Environment)
    requires env1.ytdlp == env2.ytdlp && env1.ytdlpNow == env2.ytdlpNow && env1.fs == env2.fs
    ensures DownloadMedia(url, outputDir, Audio, env1) == DownloadMedia(url, outputDir, Audio, env2)
  {
  }

  /** An audio request ends in an audio file or an error; a video request
      in a video, or an image from the fallback. */
  lemma {:induction false} MediaTypeFollowsRequest(url: string, outputDir: string, f: Format, env: Environment)
    ensures var r := DownloadMedia(url, outputDir, f, env);
      r.Settles? && r.value.Ok? ==>
        (if f == Audio then r.value.value.mediaType == AudioMedia
         else r.value.value.mediaType in {VideoMedia, ImageMedia})
  {
  }
}

=== FILE: features.dfy ===
/** features.ts: the postal-code (CEP) lookup and the link-safety check.
    The ViaCEP request and the HEAD request that follows redirects are
    oracles from the requested URL to what came back. */
module Features {
  import opened Text
  import opened Results

  /** What `axios.get` of the ViaCEP URL produced. Any field the service
      leaves out is interpolated by the source as the text `undefined`, so
      the fields are plain strings here. */
  datatype CepResponse =
    | RequestFailed
    | Address(erro: bool, logradouro: string, bairro: string, localidade: string, uf: string)

  const InvalidCep := "Invalid CEP. Must contain 8 digits."
  const LookupFailed := "Erro ao consultar CEP."
  const CepNotFound := "CEP não encontrado."

  /** The CEP with every non-digit deleted. */
  function NormalizeCep(cep: string): (clean: string)
    ensures AllDigits(clean)
    ensures forall c | IsDigit(c) :: multiset(clean)[c] == multiset(cep)[c]
  {
    KeepDigits(cep)
  }

  /** The usual written form `12345-678` loses only its dash. */
  lemma {:induction false} NormalizeFormattedCep(a: string, b: string)
    requires AllDigits(a) && AllDigits(b)
    ensures NormalizeCep(a + "-" + b) == a + b
  {
    KeepDigitsAppend(a + "-", b);
    KeepDigitsAppend(a, "-");
    KeepDigitsOfDigits(a);
    KeepDigitsOfDigits(b);
    KeepDigitsOfNonDigits("-");
    assert KeepDigits(a + "-") == a;
    assert KeepDigits(a + "-" + b) == a + b;
  }

  function ViaCepUrl(clean: string): string {
    "https://viacep.com.br/ws/" + clean + "/json/"
  }

  const AddressHeader := "📍 *Endereço Encontrado:*\n"

  /** The found-address text: header, street line, city line, CEP line. */
  function AddressText(logradouro: string, bairro: string, localidade: string, uf: string, clean: string): string {
    AddressHeader + (logradouro + ", " + bairro) + ("\n" + (localidade + " - " + uf) + ("\nCEP: " + clean))
  }

  /** `consultCep` as written: the length check comes before any request,
      and the `catch` around the request turns every failure, the `erro`
      flag's own "not found" error included, into one generic message. */
  function ConsultCep(cep: string, viacep: string -> CepResponse): (r: Result<string>)
    ensures |NormalizeCep(cep)| != 8 ==> r == Err(InvalidCep)
    ensures |NormalizeCep(cep)| == 8 ==>
      && (r.Ok? <==> viacep(ViaCepUrl(NormalizeCep(cep))).Address? && !viacep(ViaCepUrl(NormalizeCep(cep))).erro)
      && (r.Err? ==> r.message == LookupFailed)
    ensures r.Ok? ==> IsPrefix(AddressHeader, r.value)
  {
    var clean := NormalizeCep(cep);
    if |clean| != 8 then Err(InvalidCep)
    else match viacep(ViaCepUrl(clean))
      case RequestFailed => Err(LookupFailed)
      case Address(erro, logradouro, bairro, localidade, uf) =>
        if erro then Err(LookupFailed)   // the inner "CEP não encontrado." is caught and replaced
        else Ok(AddressText(logradouro, bairro, localidade, uf, clean))
  }

  /** The not-found answer the source builds never reaches the user. */
  lemma {:induction false} ConsultCepHidesNotFound(cep: string, viacep: string -> CepResponse)
    requires |NormalizeCep(cep)| == 8
    requires viacep(ViaCepUrl(NormalizeCep(cep))).Address?
    requires viacep(ViaCepUrl(NormalizeCep(cep))).erro
    ensures ConsultCep(cep, viacep) == Err(LookupFailed)
    ensures ConsultCep(cep, viacep) != Err(CepNotFound)
  {
    assert |LookupFailed| != |CepNotFound|;
  }

  /** `consultCep` as its `erro` branch means it: an unknown CEP is
      reported as not found, other failures as the generic lookup error. */
  function ConsultCepIntended(cep: string, viacep: string -> CepResponse): (r: Result<string>)
    ensures |NormalizeCep(cep)| != 8 ==> r == Err(InvalidCep)
    ensures |NormalizeCep(cep)| == 8 ==>
      var a := viacep(ViaCepUrl(NormalizeCep(cep)));
      && (r.Ok? <==> a.Address? && !a.erro)
      && (r == Err(CepNotFound) <==> a.Address? && a.erro)
      && (r == Err(LookupFailed) <==> a.RequestFailed?)
    ensures r.Ok? ==> IsPrefix(AddressHeader, r.value)
  {
    var clean := NormalizeCep(cep);
    if |clean| != 8 then Err(InvalidCep)
    else match viacep(ViaCepUrl(clean))
      case RequestFailed =>
        assert |LookupFailed| != |CepNotFound|;
        Err(LookupFailed)
      case Address(erro, logradouro, bairro, localidade, uf) =>
        if erro then Err(CepNotFound)
        else Ok(AddressText(logradouro, bairro, localidade, uf, clean))
  }

  /** A found address names the normalised CEP and every address field. */
  lemma {:induction false} CepAnswerContents(cep: string, viacep: string -> CepResponse)
    requires ConsultCepIntended(cep, viacep).Ok?
    ensures var a := viacep(ViaCepUrl(NormalizeCep(cep)));
      var text := ConsultCepIntended(cep, viacep).value;
      && a.Address? && !a.erro && |NormalizeCep(cep)| == 8
      && IsSuffix("\nCEP: " + NormalizeCep(cep), text)
      && Contains(text, a.logradouro + ", " + a.bairro)
      && Contains(text, a.localidade + " - " + a.uf)
  {
    var a := viacep(ViaCepUrl(NormalizeCep(cep)));
    AddressTextContents(a.logradouro, a.bairro, a.localidade, a.uf, NormalizeCep(cep));
  }

  lemma {:induction false} AddressTextContents(logradouro: string, bairro: string, localidade: string, uf: string, clean: string)
    ensures var text := AddressText(logradouro, bairro, localidade, uf, clean);
      && IsSuffix("\nCEP: " + clean, text)
      && Contains(text, logradouro + ", " + bairro)
      && Contains(text, localidade + " - " + uf)
  {
    var street := logradouro + ", " + bairro;
    var city := localidade + " - " + uf;
    var cepLine := "\nCEP: " + clean;
    var rest := "\n" + city + cepLine;
    var text := AddressText(logradouro, bairro, localidade, uf, clean);
    ContainsInfix(AddressHeader, street, rest);
    ContainsInfix("\n", city, cepLine);
    ContainsWidened(AddressHeader + street, rest, "", city);
    assert AddressHeader + street + rest + "" == text;
    assert text[|text| - |cepLine|..] == cepLine;
  }

  /** The two CEP lookups differ only on an unknown CEP. */
  lemma {:induction false} ConsultCepVersionsAgree(cep: string, viacep: string -> CepResponse)
    requires !(|NormalizeCep(cep)| == 8 && viacep(ViaCepUrl(NormalizeCep(cep))).Address?
               && viacep(ViaCepUrl(NormalizeCep(cep))).erro)
    ensures ConsultCep(cep, viacep) == ConsultCepIntended(cep, viacep)
  {
  }

  // ---------------------------------------------------------------------
  // Link safety

  /** What `axios.head(url, {maxRedirects: 5, validateStatus: () => true})`
      produced; any HTTP status counts as reached. */
  datatype HeadOutcome = HeadFailed | Reached(responseUrl: Option<string>)

  const SuspiciousDomains: seq<string> := ["ngrok", "serveo", "bit.ly", "tinyurl"]

  predicate IsSuspicious(finalUrl: string) {
    exists i | 0 <= i < |SuspiciousDomains| :: Contains(finalUrl, SuspiciousDomains[i])
  }

  /** The suspicious list spelled out. */
  lemma {:induction false} SuspiciousMeans(finalUrl: string)
    ensures IsSuspicious(finalUrl) <==>
      Contains(finalUrl, "ngrok") || Contains(finalUrl, "serveo")
      || Contains(finalUrl, "bit.ly") || Contains(finalUrl, "tinyurl")
  {
    if Contains(finalUrl, "ngrok") { assert Contains(finalUrl, SuspiciousDomains[0]); }
    if Contains(finalUrl, "serveo") { assert Contains(finalUrl, SuspiciousDomains[1]); }
    if Contains(finalUrl, "bit.ly") { assert Contains(finalUrl, SuspiciousDomains[2]); }
    if Contains(finalUrl, "tinyurl") { assert Contains(finalUrl, SuspiciousDomains[3]); }
  }

  /** `responseUrl || url` */
  function FinalUrl(url: string, responseUrl: Option<string>): string {
    if responseUrl.Some? && responseUrl.value != "" then responseUrl.value else url
  }

  function LinkHeader(url: string, finalUrl: string): string {
    "🔗 *Informações do Link*\nOriginal: " + url + "\nDestino: " + finalUrl
  }

  const WarningSuffix := "\n\n⚠️ *Aviso:* O domínio de destino parece ser um encurtador ou genérico. Tenha cuidado."
  const OkSuffix := "\n\n✅ O destino parece normal (mas sempre verifique)."

  function LinkError(url: string): string {
    "❌ Erro ao verificar link: " + url
  }

  /** `checkLinkSafety`: never fails; a reached link is described by its
      original and final URL and exactly one verdict. */
  function CheckLinkSafety(url: string, head: string -> HeadOutcome): (r: string)
    ensures head(url).HeadFailed? ==> r == LinkError(url)
    ensures head(url).Reached? ==>
      var finalUrl := FinalUrl(url, head(url).responseUrl);
      && (r == LinkHeader(url, finalUrl) + WarningSuffix <==> IsSuspicious(finalUrl))
      && (r == LinkHeader(url, finalUrl) + OkSuffix <==> !IsSuspicious(finalUrl))
  {
    match head(url)
    case HeadFailed => LinkError(url)
    case Reached(responseUrl) =>
      var finalUrl := FinalUrl(url, responseUrl);
      assert |WarningSuffix| != |OkSuffix|;
      LinkHeader(url, finalUrl) + (if IsSuspicious(finalUrl) then WarningSuffix else OkSuffix)
  }

  /** Without a final URL from the response, the input itself is judged. */
  lemma {:induction false} FinalUrlDefaultsToInput(url: string, head: string -> HeadOutcome)
    requires head(url) == Reached(None) || head(url) == Reached(Some(""))
    ensures CheckLinkSafety(url, head) == LinkHeader(url, url) + (if IsSuspicious(url) then WarningSuffix else OkSuffix)
  {
  }
}

=== FILE: paths.dfy ===
/** The parts of Node's POSIX `path` module the bot relies on, and the
    file-system queries it makes (`existsSync`, `statSync(...).size`) as
    plain functions of a path. */
module Paths {
  import opened Text
  import opened Results

  /** What the file system answers at the moment the bot asks. */
  datatype FileSystem = FileSystem(existsAt: string -> bool, sizeAt: string -> nat)

  // ---------------------------------------------------------------------
  // `path.join` and the normalisation behind it

  /** `p.split('/')`: the pieces between slashes, empty pieces included. */
  function Segments(p: string): (segs: seq<string>)
    ensures |segs| >= 1
    ensures forall i | 0 <= i < |segs| :: '/' !in segs[i]
  {
    if p == [] then [[]]
    else
      var rest := Segments(p[1..]);
      if p[0] == '/' then [[]] + rest
      else [[p[0]] + rest[0]] + rest[1..]
  }

  /** `segs.join('/')` */
  function Unsplit(segs: seq<string>): string
    decreases |segs|
  {
    if segs == [] then []
    else if |segs| == 1 then segs[0]
    else segs[0] + "/" + Unsplit(segs[1..])
  }

  /** Splitting at the slashes and joining with slashes gives the path back. */
  lemma {:induction false} SegmentsRoundTrip(p: string)
    ensures Unsplit(Segments(p)) == p
  {
    if p != [] {
      var rest := Segments(p[1..]);
      SegmentsRoundTrip(p[1..]);
      if p[0] == '/' {
        assert ([[]] + rest)[1..] == rest;
        assert p == "/" + p[1..];
      } else if |rest| == 1 {
        assert p == [p[0]] + p[1..];
      } else {
        var segs := [[p[0]] + rest[0]] + rest[1..];
        assert segs[1..] == rest[1..];
        assert Unsplit(rest) == rest[0] + "/" + Unsplit(rest[1..]);
        assert p == [p[0]] + p[1..];
      }
    }
  }

  /** A text without slashes is one segment. */
  lemma {:induction false} SegmentsOfName(p: string)
    requires '/' !in p
    ensures Segments(p) == [p]
  {
    if p != [] {
      assert '/' !in p[1..] by {
        assert forall i | 0 <= i < |p[1..]| :: p[1..][i] == p[i + 1];
      }
      SegmentsOfName(p[1..]);
      assert p == [p[0]] + p[1..];
    }
  }

  /** A slash between two texts separates their segments. */
  lemma {:induction false} SegmentsConcat(a: string, b: string)
    ensures Segments(a + "/" + b) == Segments(a) + Segments(b)
  {
    if a == [] {
      assert a + "/" + b == "/" + b;
      assert ("/" + b)[1..] == b;
    } else {
      var t := a + "/" + b;
      assert t[0] == a[0];
      assert t[1..] == a[1..] + "/" + b;
      SegmentsConcat(a[1..], b);
    }
  }

  /** Joining one more segment onto a non-empty list. */
  lemma {:induction false} UnsplitSnoc(segs: seq<string>, last: string)
    requires segs != []
    ensures Unsplit(segs + [last]) == Unsplit(segs) + "/" + last
    decreases |segs|
  {
    var t := segs + [last];
    if |segs| == 1 {
      assert t == [segs[0], last];
      assert t[1..] == [last];
    } else {
      assert t[1..] == segs[1..] + [last];
      UnsplitSnoc(segs[1..], last);
    }
  }

  /** One step of Node's `normalizeString`: an empty or `.` segment
      vanishes; `..` removes the last kept segment unless that is itself
      `..`, and is kept when there is nothing to remove and the path is
      relative; any other segment is kept. */
  function Resolve(kept: seq<string>, seg: string, relative: bool): seq<string> {
    if seg == "" || seg == "." then kept
    else if seg == ".." then
      if kept != [] && kept[|kept| - 1] != ".." then kept[..|kept| - 1]
      else if relative then kept + [".."]
      else kept
    else kept + [seg]
  }

  /** The segments of a normalised path: none empty or `.`, and `..` only
      in a leading run, and only on a relative path. */
  predicate Resolved(kept: seq<string>, relative: bool) {
    forall i | 0 <= i < |kept| ::
      && kept[i] != "" && kept[i] != "."
      && (kept[i] == ".." ==> relative && forall j | 0 <= j < i :: kept[j] == "..")
  }

  /** `normalizeString` over all the segments, left to right. */
  function ResolveAll(segs: seq<string>, relative: bool): (kept: seq<string>)
    ensures Resolved(kept, relative)
  {
    if segs == [] then []
    else Resolve(ResolveAll(segs[..|segs| - 1], relative), segs[|segs| - 1], relative)
  }

  /** `path.normalize(p)`: the resolved segments joined by `/`, with the
      leading `/` of an absolute path and a trailing `/` kept; `.` (or
      `./`) for a relative path that resolves to nothing. */
  function Normalize(p: string): (r: string)
    ensures r != []
  {
    if p == [] then "."
    else
      var absolute := p[0] == '/';
      var trailing := p[|p| - 1] == '/';
      var body := Unsplit(ResolveAll(Segments(p), !absolute));
      if body == [] then (if absolute then "/" else if trailing then "./" else ".")
      else (if absolute then "/" else "") + body + (if trailing then "/" else "")
  }

  /** `path.join(dir, name)`: the non-empty arguments joined by `/`, then
      normalised. */
  function Join(dir: string, name: string): (r: string)
    ensures r != []
  {
    Normalize(if dir == [] then name else if name == [] then dir else dir + "/" + name)
  }

  /** A name that normalisation keeps as it is: one segment, not `.` or `..`. */
  predicate PlainName(name: string) {
    name != [] && name != "." && name != ".." && '/' !in name
  }

  /** A plain name joined onto any directory ends the path, after a `/`
      unless it is the whole path. */
  lemma {:induction false} JoinPlain(dir: string, name: string)
    requires PlainName(name)
    ensures var p := Join(dir, name);
      IsSuffix(name, p) && (|p| == |name| || p[|p| - |name| - 1] == '/')
  {
    var joined := if dir == [] then name else dir + "/" + name;
    var front := if dir == [] then [] else Segments(dir);
    var relative := joined[0] != '/';
    JoinedSegments(dir, name);
    assert joined[|joined| - 1] == name[|name| - 1];
    NormalizeEndingIn(joined, ResolveAll(front, relative), name);
  }

  /** The segments of `dir` and `name` joined by a slash, resolved. */
  lemma {:induction false} JoinedSegments(dir: string, name: string)
    requires PlainName(name)
    ensures var joined := if dir == [] then name else dir + "/" + name;
      var front := if dir == [] then [] else Segments(dir);
      var relative := joined[0] != '/';
      ResolveAll(Segments(joined), relative) == ResolveAll(front, relative) + [name]
  {
    SegmentsOfName(name);
    var joined := if dir == [] then name else dir + "/" + name;
    var front := if dir == [] then [] else Segments(dir);
    if dir != [] {
      SegmentsConcat(dir, name);
    }
    assert Segments(joined) == front + [name];
    assert (front + [name])[..|front|] == front;
  }

  /** `r` ends in the segment `name`: a suffix that is the whole text or
      follows a `/`. */
  predicate EndsInSegment(r: string, name: string) {
    IsSuffix(name, r) && (|r| == |name| || r[|r| - |name| - 1] == '/')
  }

  /** A path whose resolved segments end in a plain name, and that has no
      trailing slash, normalises to a text ending in that name. */
  lemma {:induction false} NormalizeEndingIn(p: string, kept: seq<string>, name: string)
    requires p != [] && p[|p| - 1] != '/' && PlainName(name)
    requires ResolveAll(Segments(p), p[0] != '/') == kept + [name]
    ensures EndsInSegment(Normalize(p), name)
  {
    var body := Unsplit(kept + [name]);
    UnsplitEndingIn(kept, name);
    NormalizeOfBody(p, body);
    EndingAfterLead(if p[0] == '/' then "/" else "", body, name);
  }

  /** Behind an optional `/`, a text ending in `name` after a `/` still does. */
  lemma {:induction false} EndingAfterLead(lead: string, body: string, name: string)
    requires lead == "" || lead == "/"
    requires EndsInSegment(body, name)
    ensures EndsInSegment(lead + body, name)
  {
    var r := lead + body;
    assert r[|r| - |body|..] == body;
    if |body| > |name| {
      assert r[|r| - |name| - 1] == body[|body| - |name| - 1];
    }
  }

  /** Without a trailing slash and with a non-empty resolved body, the
      normal form is the body behind the leading `/` of an absolute path. */
  lemma {:induction false} NormalizeOfBody(p: string, body: string)
    requires p != [] && p[|p| - 1] != '/' && body != []
    requires Unsplit(ResolveAll(Segments(p), p[0] != '/')) == body
    ensures Normalize(p) == (if p[0] == '/' then "/" else "") + body
  {
    assert body + "" == body;
  }

  /** Segments ending in `name` join to a text ending in `name`, after a `/`
      unless it is the whole text. */
  lemma {:induction false} UnsplitEndingIn(kept: seq<string>, name: string)
    requires name != []
    ensures Unsplit(kept + [name]) != [] && EndsInSegment(Unsplit(kept + [name]), name)
  {
    if kept == [] {
      assert kept + [name] == [name];
    } else {
      UnsplitSnoc(kept, name);
    }
  }

  /** A plain name joined onto a plain directory lands directly in it. */
  lemma {:induction false} JoinInside(dir: string, name: string)
    requires PlainName(dir) && PlainName(name)
    ensures Join(dir, name) == dir + "/" + name
  {
    SegmentsOfName(dir);
    SegmentsOfName(name);
    SegmentsConcat(dir, name);
    var segs := [dir] + [name];
    assert segs[..1] == [dir];
    assert ResolveAll([dir], true) == [dir];
    assert ResolveAll(segs, true) == [dir, name];
    assert Unsplit([dir, name]) == dir + "/" + Unsplit([name]);
    assert (dir + "/" + name)[0] == dir[0];
  }

  /** Two `..` segments behind a plain name climb out of the directory it
      is joined onto: what follows lands beside that directory. */
  lemma {:induction false} JoinClimbsOut(dir: string, sub: string, a: string, b: string)
    requires PlainName(dir) && PlainName(sub) && PlainName(a) && PlainName(b)
    ensures Join(dir, sub + "/../../" + a + "/" + b) == a + "/" + b
  {
    var joined := dir + "/" + (sub + "/../../" + a + "/" + b);
    ClimbSegments(dir, sub, a, b);
    ClimbResolves(dir, sub, a, b);
    assert Unsplit([a, b]) == a + "/" + b;
    assert joined[0] == dir[0];
    assert joined[|joined| - 1] == b[|b| - 1];
    NormalizeOfBody(joined, a + "/" + b);
  }

  lemma {:induction false} ClimbSegments(dir: string, sub: string, a: string, b: string)
    requires PlainName(dir) && PlainName(sub) && PlainName(a) && PlainName(b)
    ensures Segments(dir + "/" + (sub + "/../../" + a + "/" + b)) == [dir, sub, "..", "..", a, b]
  {
    var up := "..";
    var tail := a + "/" + b;
    assert sub + "/../../" + a + "/" + b == sub + "/" + (up + "/" + (up + "/" + tail));
    SegmentsOfName(dir);
    SegmentsOfName(sub);
    SegmentsOfName(up);
    SegmentsOfName(a);
    SegmentsOfName(b);
    SegmentsConcat(a, b);
    SegmentsConcat(up, tail);
    SegmentsConcat(up, up + "/" + tail);
    SegmentsConcat(sub, up + "/" + (up + "/" + tail));
    SegmentsConcat(dir, sub + "/" + (up + "/" + (up + "/" + tail)));
  }

  lemma {:induction false} ClimbResolves(dir: string, sub: string, a: string, b: string)
    requires PlainName(dir) && PlainName(sub) && PlainName(a) && PlainName(b)
    ensures ResolveAll([dir, sub, "..", "..", a, b], true) == [a, b]
  {
    var segs := [dir, sub, "..", "..", a, b];
    ResolvePlainPair(dir, sub, true);
    assert segs[..2] == [dir, sub];
    assert segs[..3][..2] == segs[..2];
    assert ResolveAll(segs[..3], true) == [dir];
    assert segs[..4][..3] == segs[..3];
    assert ResolveAll(segs[..4], true) == [];
    assert segs[..5][..4] == segs[..4];
    assert ResolveAll(segs[..5], true) == [a];
    assert segs[..5] == segs[..|segs| - 1];
  }

  /** Two plain segments resolve to themselves. */
  lemma {:induction false} ResolvePlainPair(x: string, y: string, relative: bool)
    requires PlainName(x) && PlainName(y)
    ensures ResolveAll([x, y], relative) == [x, y]
  {
    assert [x][..0] == [];
    assert ResolveAll([x], relative) == Resolve([], x, relative) == [x];
    assert [x, y][..1] == [x];
    assert ResolveAll([x, y], relative) == Resolve([x], y, relative);
  }

  /** A trailing `/.` after a plain name vanishes. */
  lemma {:induction false} JoinDropsDot(dir: string, sub: string)
    requires PlainName(dir) && PlainName(sub)
    ensures Join(dir, sub + "/.") == dir + "/" + sub
  {
    var dot := ".";
    var joined := dir + "/" + (sub + "/.");
    assert sub + "/." == sub + "/" + dot;
    SegmentsOfName(dir);
    SegmentsOfName(sub);
    SegmentsOfName(dot);
    SegmentsConcat(sub, dot);
    SegmentsConcat(dir, sub + "/" + dot);
    var segs := [dir, sub, dot];
    assert Segments(joined) == segs;
    ResolvePlainPair(dir, sub, true);
    assert segs[..2] == [dir, sub];
    assert ResolveAll(segs, true) == [dir, sub];
    assert Unsplit([dir, sub]) == dir + "/" + sub;
    assert joined[0] == dir[0];
    assert joined[|joined| - 1] == '.';
    NormalizeOfBody(joined, dir + "/" + sub);
  }

  function StripTrailingSlashes(p: string): (r: string)
    ensures IsPrefix(r, p)
    ensures forall i | |r| <= i < |p| :: p[i] == '/'
    ensures r == [] || r[|r| - 1] != '/'
  {
    if |p| > 0 && p[|p| - 1] == '/' then StripTrailingSlashes(p[..|p| - 1]) else p
  }

  /** The last `/`-separated segment of `p`. */
  function AfterLastSlash(p: string): (r: string)
    ensures IsSuffix(r, p)
    ensures '/' !in r
    ensures |r| < |p| ==> p[|p| - |r| - 1] == '/'
  {
    if p == [] || p[|p| - 1] == '/' then []
    else AfterLastSlash(p[..|p| - 1]) + [p[|p| - 1]]
  }

  /** `path.basename(p)`: the segment after the last `/` once trailing
      slashes are ignored. */
  function Basename(p: string): (r: string)
    ensures var q := StripTrailingSlashes(p);
      && IsSuffix(r, q) && '/' !in r
      && (|r| < |q| ==> q[|q| - |r| - 1] == '/')
  {
    AfterLastSlash(StripTrailingSlashes(p))
  }

  /** Index of the last `.` in `s`, if any. */
  function LastDot(s: string): (r: Option<nat>)
    ensures r.Some? ==> r.value < |s| && s[r.value] == '.' && '.' !in s[r.value + 1..]
    ensures r.None? ==> '.' !in s
  {
    if s == [] then None
    else if s[|s| - 1] == '.' then Some(|s| - 1)
    else
      var r := LastDot(s[..|s| - 1]);
      assert s == s[..|s| - 1] + [s[|s| - 1]];
      r
  }

  /** A dot-free prefix does not move the last dot, only shifts its index. */
  lemma {:induction false} LastDotAfter(p: string, f: string)
    requires '.' !in p
    ensures LastDot(p + f) == (match LastDot(f) case None => None case Some(d) => Some(|p| + d))
  {
    if f == [] {
      assert p + f == p;
    } else {
      var s := p + f;
      assert s[..|s| - 1] == p + f[..|f| - 1];
      if f[|f| - 1] != '.' {
        LastDotAfter(p, f[..|f| - 1]);
      }
    }
  }

  /** The extension of a base name `b`: from its last `.` to its end,
      unless there is no `.`, the only candidate is `b`'s first character
      (a dot-file), or `b` is `..`. */
  function Extension(b: string): (e: string)
    ensures e == [] || (e[0] == '.' && '.' !in e[1..])
    ensures e == [] || (IsSuffix(e, b) && |e| < |b|)
  {
    match LastDot(b)
    case None => ""
    case Some(d) =>
      if d == 0 || b == ".." then ""
      else
        assert b[d..][1..] == b[d + 1..];
        b[d..]
  }

  /** Behind a non-empty prefix without dots, the extension is the one of
      the rest: the prefix keeps the rest's leading dot from making it a
      dot-file. */
  lemma {:induction false} ExtensionAfterPrefix(p: string, name: string)
    requires p != [] && '.' !in p
    ensures Extension(p + name) == (match LastDot(name) case None => "" case Some(d) => name[d..])
  {
    match LastDot(name)
    case None => ExtensionAfterPrefixNoDot(p, name);
    case Some(d) => ExtensionAfterPrefixAtDot(p, name, d);
  }

  /** No dot in either part: no extension. */
  lemma {:induction false} ExtensionAfterPrefixNoDot(p: string, name: string)
    requires '.' !in p && LastDot(name).None?
    ensures Extension(p + name) == ""
  {
    LastDotAfter(p, name);
  }

  /** The rest's last dot, shifted by the prefix, starts the extension. */
  lemma {:induction false} ExtensionAfterPrefixAtDot(p: string, name: string, d: nat)
    requires p != [] && '.' !in p && LastDot(name) == Some(d)
    ensures Extension(p + name) == name[d..]
  {
    var b := p + name;
    LastDotAfter(p, name);
    assert b[0] == p[0];
    ExtensionAtDot(b, |p| + d);
    SuffixOfConcat(p, name, d);
  }

  /** Cutting a concatenation inside its second part. */
  lemma {:induction false} SuffixOfConcat(a: string, b: string, k: nat)
    requires k <= |b|
    ensures (a + b)[|a| + k..] == b[k..]
  {
  }

  /** In a name that does not start with a dot, the last dot starts its
      extension. */
  lemma {:induction false} ExtensionAtDot(b: string, d: nat)
    requires b != [] && b[0] != '.' && LastDot(b) == Some(d)
    ensures Extension(b) == b[d..]
  {
    assert b != "..";
  }

  /** `path.extname(p)` */
  function Extname(p: string): string {
    Extension(Basename(p))
  }

  /** Every character of an extension comes from the path, and none is `/`. */
  lemma {:induction false} ExtnameChars(p: string)
    ensures forall i | 0 <= i < |Extname(p)| :: Extname(p)[i] in p && Extname(p)[i] != '/'
  {
    var q := StripTrailingSlashes(p);
    var b := AfterLastSlash(q);
    var e := Extension(b);
    assert e == Extname(p);
    forall i | 0 <= i < |e|
      ensures e[i] in p && e[i] != '/'
    {
      var j := |b| - |e| + i;
      assert e[i] == b[j];
      var k := |q| - |b| + j;
      assert b[j] == q[k];
      assert q[k] == p[k];
    }
  }

  /** A base name without its extension. */
  function BaseStem(b: string): (s: string)
    ensures s + Extension(b) == b
    ensures s != [] || b == []
  {
    var e := Extension(b);
    assert e == [] || (|e| < |b| && b[|b| - |e|..] == e);
    assert b[..|b| - |e|] + b[|b| - |e|..] == b;
    b[..|b| - |e|]
  }

  /** `path.basename(p, path.extname(p))`: the base name without its extension. */
  function Stem(p: string): (s: string)
    ensures s + Extname(p) == Basename(p)
    ensures s != [] || Basename(p) == []
  {
    BaseStem(Basename(p))
  }

  /** The stem of a path whose base name is known. */
  lemma {:induction false} StemOf(p: string, b: string)
    requires Basename(p) == b
    ensures Stem(p) == b[..|b| - |Extension(b)|]
  {
  }

  /** The last segment of a path that ends in `name` after a `/` (or is just `name`). */
  lemma {:induction false} AfterLastSlashOf(x: string, name: string)
    requires '/' !in name
    requires x == [] || x[|x| - 1] == '/'
    ensures AfterLastSlash(x + name) == name
  {
    if name != [] {
      var n' := name[..|name| - 1];
      assert x + name == (x + n') + [name[|name| - 1]];
      assert (x + name)[..|x + name| - 1] == x + n';
      AfterLastSlashOf(x, n');
    } else {
      assert x + name == x;
    }
  }

  /** A plain name joined onto a directory keeps its name as the base name. */
  lemma {:induction false} BasenameOfJoin(dir: string, name: string)
    requires PlainName(name)
    ensures Basename(Join(dir, name)) == name
  {
    JoinPlain(dir, name);
    BasenameOfEnding(Join(dir, name), name);
  }

  /** A path ending in a plain name after a `/` has that name as its base name. */
  lemma {:induction false} BasenameOfEnding(p: string, name: string)
    requires PlainName(name) && EndsInSegment(p, name)
    ensures Basename(p) == name
  {
    assert p[|p| - 1] == name[|name| - 1];
    assert StripTrailingSlashes(p) == p;
    var x := p[..|p| - |name|];
    assert p == x + name;
    AfterLastSlashOf(x, name);
  }
}

=== FILE: replies.dfy ===
/** The replies of index.ts: what the bot sends back for a download
    (`handleDownload`), a CEP lookup, a link check and a PDF conversion.
    Sending is not an effect here: each flow yields the messages it sends,
    in the order it sends them. */
module Replies {
  import opened Text
  import opened Results
  import opened Paths
  import opened Download
  import Features
  import Converter

  /** `TEMP_DIR`: where downloads and conversions are written. */
  const TempDir := "temp_downloads"
  /** Where the bot keeps its WhatsApp session, and the credentials in it. */
  const AuthDir := "auth_info_baileys"
  const CredsFile := "creds.json"

  /** The caption of a document reply. `SizeCaption` stands for the
      large-file caption, which prints the size in MiB with two decimals. */
  datatype Caption = NoCaption | Caption(text: string) | SizeCaption(sizeBytes: nat)

  /** A message to the chat. Media replies carry the path of the file whose
      bytes are read and attached. */
  datatype Outbound =
    | TextReply(body: string)
    | Reaction(emoji: string)
    | VideoReply(path: string, caption: string)
    | ImageReply(path: string, caption: string)
    | AudioReply(path: string, mimetype: string, caption: string)
    | DocumentReply(path: string, mimetype: string, fileName: string, docCaption: Caption)

  predicate IsMedia(m: Outbound) {
    m.VideoReply? || m.ImageReply? || m.AudioReply? || m.DocumentReply?
  }

  // ---------------------------------------------------------------------
  // Timestamp prefixes

  /** The `<Date.now()>_` prefix the bot puts in front of the files it saves. */
  function Stamp(now: nat): (p: string)
    ensures p != [] && '.' !in p && '/' !in p
  {
    var p := Decimal(now) + "_";
    assert forall i | 0 <= i < |p| :: IsDigit(p[i]) || p[i] == '_';
    p
  }

  /** The text starts with one or more digits followed by `_`. */
  predicate HasTimestampPrefix(s: string) {
    exists n | 1 <= n < |s| :: AllDigits(s[..n]) && s[n] == '_'
  }

  /** `s.replace(/^\d+_/, '')`: drops one leading run of digits and the
      `_` after it; the expression has no `g` flag, so at most once. */
  function StripTimestampPrefix(s: string): (r: string)
    ensures IsSuffix(r, s)
    ensures r != s <==> HasTimestampPrefix(s)
    ensures r != s ==> |r| + 2 <= |s| && s[|s| - |r| - 1] == '_' && AllDigits(s[..|s| - |r| - 1])
  {
    var n := Run(s, IsDigit);
    if HasTimestampPrefix(s) then
      var k :| 1 <= k < |s| && AllDigits(s[..k]) && s[k] == '_';
      assert k == n;
      s[n + 1..]
    else
      s
  }

  /** A run of digits and `_` in front of a name is exactly what goes. */
  lemma {:induction false} StripDigitsPrefix(d: string, name: string)
    requires d != [] && AllDigits(d)
    ensures StripTimestampPrefix(d + "_" + name) == name
  {
    var s := d + "_" + name;
    assert s[..|d|] == d;
    assert s[|d|] == '_';
    assert HasTimestampPrefix(s);
    assert s[|s| - |name|..] == name;
  }

  /** The names the bot gives its files, `<Date.now()>_<name>`, lose exactly
      that prefix. */
  lemma {:induction false} StripTimestampRoundTrip(ts: nat, name: string)
    ensures StripTimestampPrefix(Stamp(ts) + name) == name
  {
    StripDigitsPrefix(Decimal(ts), name);
  }

  /** Only one prefix goes: a second timestamp stays in the name. */
  lemma {:induction false} StripTimestampOnce(ts1: nat, ts2: nat, name: string)
    ensures StripTimestampPrefix(Stamp(ts1) + Stamp(ts2) + name) == Stamp(ts2) + name
  {
    assert Stamp(ts1) + Stamp(ts2) + name == Stamp(ts1) + (Stamp(ts2) + name);
    StripTimestampRoundTrip(ts1, Stamp(ts2) + name);
  }

  // ---------------------------------------------------------------------
  // Download replies

  /** `MAX_VIDEO_SIZE`: larger files are sent as documents. */
  const MaxInlineSize := 60 * 1024 * 1024

  const OctetStream := "application/octet-stream"
  const AudioMime := "audio/mp4"
  const VideoCaption := "🎥 *Aqui está seu vídeo!*"
  const ImageCaption := "🖼️ *Aqui está sua imagem!*"
  const AudioCaption := "🎵 *Aqui está seu áudio!*"

  /** The media message for a finished download. `mimeLookup` is the
      `mime-types` table by file name. */
  function MediaReply(res: DownloadResult, f: Format, mimeLookup: string -> Option<string>): (m: Outbound)
    ensures IsMedia(m) && m.path == res.filePath
    ensures res.size > MaxInlineSize ==>
      && m.DocumentReply?
      && m.fileName == StripTimestampPrefix(res.title)
      && m.docCaption == SizeCaption(res.size)
      && (mimeLookup(res.filePath).Some? ==> m.mimetype == mimeLookup(res.filePath).value)
      && (mimeLookup(res.filePath).None? ==> m.mimetype == OctetStream)
    ensures res.size <= MaxInlineSize ==>
      && (m.VideoReply? <==> res.mediaType == VideoMedia)
      && (m.ImageReply? <==> res.mediaType == ImageMedia)
      && (m.AudioReply? <==> res.mediaType !in {VideoMedia, ImageMedia}
                             && (f == Audio || IsSuffix(".mp3", res.filePath)))
      && (m.DocumentReply? ==> m == DocumentReply(res.filePath, OctetStream, StripTimestampPrefix(res.title), NoCaption))
  {
    var cleanTitle := StripTimestampPrefix(res.title);
    if res.size > MaxInlineSize then
      var mimeType := match mimeLookup(res.filePath) case Some(t) => t case None => OctetStream;
      DocumentReply(res.filePath, mimeType, cleanTitle, SizeCaption(res.size))
    else if res.mediaType == VideoMedia then VideoReply(res.filePath, VideoCaption)
    else if res.mediaType == ImageMedia then ImageReply(res.filePath, ImageCaption)
    else if f == Audio || IsSuffix(".mp3", res.filePath) then AudioReply(res.filePath, AudioMime, AudioCaption)
    else DocumentReply(res.filePath, OctetStream, cleanTitle, NoCaption)
  }

  const DeprecatedMarker := "deprecated"
  const ExitCodeOneMarker := "yt-dlp exited with code 1"
  const UpdateNeeded := "Atualização de servidor necessária (Python)."
  const Unavailable := "Conteúdo privado ou indisponível."

  /** The `safeError` rewriting. The second test looks at the already
      rewritten text, so a message with both markers reads as an update
      problem. */
  function ErrorText(message: string): (r: string)
    ensures Contains(message, DeprecatedMarker) ==> r == UpdateNeeded
    ensures !Contains(message, DeprecatedMarker) && Contains(message, ExitCodeOneMarker) ==> r == Unavailable
    ensures !Contains(message, DeprecatedMarker) && !Contains(message, ExitCodeOneMarker) ==> r == message
  {
    var afterDeprecated := if Contains(message, DeprecatedMarker) then UpdateNeeded else message;
    MarkersAbsent();
    if Contains(afterDeprecated, ExitCodeOneMarker) then Unavailable else afterDeprecated
  }

  /** Neither replacement text triggers a rewrite. */
  lemma {:induction false} MarkersAbsent()
    ensures !Contains(UpdateNeeded, ExitCodeOneMarker) && !Contains(UpdateNeeded, DeprecatedMarker)
    ensures !Contains(Unavailable, ExitCodeOneMarker) && !Contains(Unavailable, DeprecatedMarker)
  {
    assert ExitCodeOneMarker[8] == 'x' && DeprecatedMarker[2] == 'p' && DeprecatedMarker[5] == 'c';
    assert forall i | 0 <= i < |UpdateNeeded| :: UpdateNeeded[i] != 'x' && UpdateNeeded[i] != 'p';
    assert forall i | 0 <= i < |Unavailable| :: Unavailable[i] != 'x' && Unavailable[i] != 'c';
    MissingCharNotContained(UpdateNeeded, ExitCodeOneMarker, 8);
    MissingCharNotContained(UpdateNeeded, DeprecatedMarker, 2);
    MissingCharNotContained(Unavailable, ExitCodeOneMarker, 8);
    MissingCharNotContained(Unavailable, DeprecatedMarker, 5);
  }

  /** Rewriting a rewritten reason changes nothing. */
  lemma {:induction false} ErrorTextIdempotent(message: string)
    ensures ErrorText(ErrorText(message)) == ErrorText(message)
  {
    MarkersAbsent();
  }

  function DownloadFailureText(message: string): string {
    "❌ *Falha no Download*\n\nMotivo: _" + ErrorText(message) + "_"
  }

  const FileMissing := "Arquivo não encontrado após download"

  /** `handleDownload`: an hourglass, then either the media and a check
      mark, or the reason and a cross. The file is looked up again after
      `downloadMedia` resolves; while that never settles, the hourglass is
      all the chat gets. */
  function DownloadReplies(url: string, f: Format, env: Environment, mimeLookup: string -> Option<string>): (out: seq<Outbound>)
    ensures |out| >= 1 && out[0] == Reaction("⏳")
    ensures var d := DownloadMedia(url, TempDir, f, env);
      && (d.NeverSettles? <==> |out| == 1)
      && (d.Settles? ==>
            && |out| == 3
            && (out[2] == Reaction("✅") <==> d.value.Ok? && env.fs.existsAt(d.value.value.filePath))
            && (out[2] == Reaction("✅") ==> out[1] == MediaReply(d.value.value, f, mimeLookup))
            && (out[2] != Reaction("✅") ==> out[2] == Reaction("❌"))
            && (d.value.Err? ==> out[1] == TextReply(DownloadFailureText(d.value.message)))
            && (d.value.Ok? && !env.fs.existsAt(d.value.value.filePath) ==>
                  out[1] == TextReply(DownloadFailureText(FileMissing))))
  {
    match DownloadMedia(url, TempDir, f, env)
    case NeverSettles => [Reaction("⏳")]
    case Settles(Ok(res)) =>
      if env.fs.existsAt(res.filePath) then
        [Reaction("⏳"), MediaReply(res, f, mimeLookup), Reaction("✅")]
      else
        [Reaction("⏳"), TextReply(DownloadFailureText(FileMissing)), Reaction("❌")]
    case Settles(Err(m)) =>
      [Reaction("⏳"), TextReply(DownloadFailureText(m)), Reaction("❌")]
  }

  /** Whether `handleDownload` returns at all. */
  predicate DownloadSettles(url: string, f: Format, env: Environment) {
    DownloadMedia(url, TempDir, f, env).Settles?
  }

  /** A download that never settles is answered with the hourglass alone. */
  lemma {:induction false} StalledDownloadIsHourglass(url: string, f: Format, env: Environment, mimeLookup: string -> Option<string>)
    requires !DownloadSettles(url, f, env)
    ensures DownloadReplies(url, f, env, mimeLookup) == [Reaction("⏳")]
  {
    var out := DownloadReplies(url, f, env, mimeLookup);
    assert |out| == 1 && out[0] == Reaction("⏳");
  }

  /** A yt-dlp process that never closes leaves the hourglass alone, for
      audio and video alike. */
  lemma {:induction false} HungYtDlpLeavesHourglass(url: string, f: Format, env: Environment, mimeLookup: string -> Option<string>)
    requires env.ytdlp(YtDlpArgs(url, TempDir, env.ytdlpNow, f)).NeverSettles?
    ensures DownloadReplies(url, f, env, mimeLookup) == [Reaction("⏳")]
  {
    DownloadStallCases(url, TempDir, f, env);
    StalledDownloadIsHourglass(url, f, env, mimeLookup);
  }

  /** A video whose yt-dlp run failed and whose preview image stream breaks
      off is answered with the hourglass alone. */
  lemma {:induction false} StalledImageLeavesHourglass(url: string, env: Environment, mimeLookup: string -> Option<string>)
    requires DownloadWithYtDlp(url, TempDir, Video, env).Settles? && DownloadWithYtDlp(url, TempDir, Video, env).value.Err?
    requires env.fetchPage(url).Ok? && PreviewImage(env.fetchPage(url).value).Some?
    requires var image := PreviewImage(env.fetchPage(url).value).value;
      env.saveImage(image, Join(TempDir, ImageFileName(image, env.scrapeNow))) == Stalled
    ensures DownloadReplies(url, Video, env, mimeLookup) == [Reaction("⏳")]
    ensures !DownloadSettles(url, Video, env)
  {
  }

  /** A file yt-dlp left on disk is always delivered. */
  lemma {:induction false} YtDlpSuccessIsDelivered(url: string, f: Format, env: Environment, mimeLookup: string -> Option<string>)
    requires DownloadWithYtDlp(url, TempDir, f, env).Settles? && DownloadWithYtDlp(url, TempDir, f, env).value.Ok?
    ensures DownloadReplies(url, f, env, mimeLookup)[2] == Reaction("✅")
    ensures DownloadReplies(url, f, env, mimeLookup)[1].path == DownloadWithYtDlp(url, TempDir, f, env).value.value.filePath
  {
  }

  /** A failed audio request always reports the fixed audio text: the
      yt-dlp reason never reaches the user. */
  lemma {:induction false} AudioFailureText(url: string, env: Environment, mimeLookup: string -> Option<string>)
    requires DownloadWithYtDlp(url, TempDir, Audio, env).Settles? && DownloadWithYtDlp(url, TempDir, Audio, env).value.Err?
    ensures DownloadReplies(url, Audio, env, mimeLookup)[1] == TextReply(DownloadFailureText(AudioUnavailable))
  {
  }

  // ---------------------------------------------------------------------
  // Command replies

  const MenuText :=
    "🤖 *Atlas Bot - Menu de Ajuda* 🤖\n\n"
    + "Aqui está o que eu posso fazer por você:\n\n"
    + "🎬 *Baixar Mídias*\n"
    + "Envie links do *YouTube, Instagram, TikTok, Pinterest, Twitter* ou *Reddit* para baixar vídeos ou imagens.\n\n"
    + "📄 *Converter PDF para Word*\n"
    + "Apenas envie um arquivo PDF e eu transformo em .docx para você.\n\n"
    + "📍 *Consultar CEP*\n"
    + "Use: `!cep 01001000`\n\n"
    + "🔗 *Verificar Links*\n"
    + "Use: `!check <link>` para ver se é seguro.\n\n"
    + "_Desenvolvido para facilitar sua vida!_ 🚀"

  const CepErrorPrefix := "❌ *Erro:* "

  /** The answer to `!cep <arg>` (index.ts as written): the address, or
      the lookup's error behind a fixed prefix. */
  function CepReply(arg: string, viacep: string -> Features.CepResponse): (m: Outbound)
    ensures m.TextReply?
    ensures Features.ConsultCep(arg, viacep).Ok? <==> !IsPrefix(CepErrorPrefix, m.body)
    ensures Features.ConsultCep(arg, viacep).Err? ==>
      m.body == CepErrorPrefix + Features.ConsultCep(arg, viacep).message
  {
    CepAnswer(Features.ConsultCep(arg, viacep))
  }

  /** The same answer built on the lookup that reports an unknown CEP. */
  function CepReplyIntended(arg: string, viacep: string -> Features.CepResponse): (m: Outbound)
    ensures m.TextReply?
    ensures Features.ConsultCepIntended(arg, viacep).Ok? <==> !IsPrefix(CepErrorPrefix, m.body)
    ensures Features.ConsultCepIntended(arg, viacep).Err? ==>
      m.body == CepErrorPrefix + Features.ConsultCepIntended(arg, viacep).message
  {
    CepAnswer(Features.ConsultCepIntended(arg, viacep))
  }

  /** A lookup's outcome as a chat message. */
  function CepAnswer(r: Result<string>): (m: Outbound)
    requires r.Ok? ==> IsPrefix(Features.AddressHeader, r.value)
    ensures m.TextReply?
    ensures r.Ok? <==> !IsPrefix(CepErrorPrefix, m.body)
    ensures r.Ok? ==> m.body == r.value
    ensures r.Err? ==> m.body == CepErrorPrefix + r.message
  {
    match r
    case Ok(t) =>
      assert t[0] == Features.AddressHeader[0] != CepErrorPrefix[0];
      TextReply(t)
    case Err(e) =>
      assert (CepErrorPrefix + e)[..|CepErrorPrefix|] == CepErrorPrefix;
      TextReply(CepErrorPrefix + e)
  }

  /** An unknown CEP is answered with the generic lookup error. */
  lemma {:induction false} UnknownCepReply(arg: string, viacep: string -> Features.CepResponse)
    requires |Features.NormalizeCep(arg)| == 8
    requires viacep(Features.ViaCepUrl(Features.NormalizeCep(arg))).Address?
    requires viacep(Features.ViaCepUrl(Features.NormalizeCep(arg))).erro
    ensures CepReply(arg, viacep) == TextReply(CepErrorPrefix + Features.LookupFailed)
    ensures CepReplyIntended(arg, viacep) == TextReply(CepErrorPrefix + Features.CepNotFound)
  {
  }

  /** A CEP without eight digits is refused without a request. */
  lemma {:induction false} ShortCepRefused(arg: string, viacep: string -> Features.CepResponse)
    requires |KeepDigits(arg)| != 8
    ensures CepReply(arg, viacep) == TextReply(CepErrorPrefix + Features.InvalidCep)
  {
  }

  // ---------------------------------------------------------------------
  // PDF conversion replies

  const DocxMime := "application/vnd.openxmlformats-officedocument.wordprocessingml.document"
  const DocxCaption := "📄 *Aqui está seu arquivo Word convertido!*"
  const ConversionErrorPrefix := "❌ *Falha na Conversão:* "
  const MediaFetchFailed := "Falha ao baixar mídia"

  /** What the conversion flow sees of the world. */
  datatype PdfWorld = PdfWorld(
    upload: Result<()>,  // `downloadMediaMessage`; a result that is not a buffer is `Err(MediaFetchFailed)`
    now: nat,            // `Date.now()` for the saved upload's name
    convert: (string, string) -> Converter.ConversionRun,
    fs: FileSystem)

  /** `fileName || 'file.pdf'` */
  function UploadName(fileName: Option<string>): string {
    if fileName.Some? && fileName.value != "" then fileName.value else "file.pdf"
  }

  function UploadPath(fileName: Option<string>, now: nat): string {
    Join(TempDir, Stamp(now) + UploadName(fileName))
  }

  /** The PDF flow: a gear, then the Word file and a check mark, or the
      failure reason. */
  function PdfReplies(fileName: Option<string>, w: PdfWorld): (out: seq<Outbound>)
    ensures |out| >= 2 && out[0] == Reaction("⚙️")
    ensures var conv := Converter.ConvertPdfToDocx(UploadPath(fileName, w.now), TempDir, w.convert, w.fs);
      && (w.upload.Err? ==> out == [Reaction("⚙️"), ConversionFailure(w.upload.message)])
      && (w.upload.Ok? && conv.Err? ==> out == [Reaction("⚙️"), ConversionFailure(conv.message)])
      && (w.upload.Ok? && conv.Ok? ==>
            out == [Reaction("⚙️"),
                    DocumentReply(conv.value, DocxMime, StripTimestampPrefix(Basename(conv.value)), Caption(DocxCaption)),
                    Reaction("✅")])
  {
    match w.upload
    case Err(m) => [Reaction("⚙️"), ConversionFailure(m)]
    case Ok(_) =>
      match Converter.ConvertPdfToDocx(UploadPath(fileName, w.now), TempDir, w.convert, w.fs)
      case Err(m) => [Reaction("⚙️"), ConversionFailure(m)]
      case Ok(out) =>
        [Reaction("⚙️"), DocumentReply(out, DocxMime, StripTimestampPrefix(Basename(out)), Caption(DocxCaption)), Reaction("✅")]
  }

  /** The PDF flow ends in a check mark exactly when the media fetch and
      the conversion both succeed; otherwise its only other message is the
      failure text. */
  lemma {:induction false} PdfOutcome(fileName: Option<string>, w: PdfWorld)
    ensures var out := PdfReplies(fileName, w);
      var conv := Converter.ConvertPdfToDocx(UploadPath(fileName, w.now), TempDir, w.convert, w.fs);
      && (out[|out| - 1] == Reaction("✅") <==> w.upload.Ok? && conv.Ok?)
      && (out[|out| - 1] != Reaction("✅") ==>
            |out| == 2 && out[1].TextReply? && IsPrefix(ConversionErrorPrefix, out[1].body))
  {
    var out := PdfReplies(fileName, w);
    assert |out| >= 2;
  }

  /** The text sent when the conversion flow throws: the prefix, then the reason. */
  function ConversionFailure(reason: string): (m: Outbound)
    ensures m.TextReply? && IsPrefix(ConversionErrorPrefix, m.body)
    ensures m.body[|ConversionErrorPrefix|..] == reason
  {
    var body := ConversionErrorPrefix + reason;
    assert body[..|ConversionErrorPrefix|] == ConversionErrorPrefix;
    assert body[|ConversionErrorPrefix|..] == reason;
    TextReply(body)
  }

  /** The uploaded name with its last extension, if any, removed. */
  function WithoutLastExtension(name: string): (r: string)
    ensures IsPrefix(r, name)
  {
    match LastDot(name)
    case None => name
    case Some(d) => name[..d]
  }

  /** Behind a dot-free prefix, a file's stem is the prefix and the name
      without its last extension. */
  lemma {:induction false} StampedStem(dir: string, p: string, name: string)
    requires p != [] && '.' !in p && '/' !in p && '/' !in name
    ensures Stem(Join(dir, p + name)) == p + WithoutLastExtension(name)
  {
    var saved := p + name;
    assert saved[0] == p[0] != '.';
    assert '/' !in saved;
    BasenameOfJoin(dir, saved);
    StemOf(Join(dir, saved), saved);
    StampedWithoutExtension(p, name);
  }

  /** Behind a dot-free prefix, dropping the extension drops the name's. */
  lemma {:induction false} StampedWithoutExtension(p: string, name: string)
    requires p != [] && '.' !in p
    ensures var saved := p + name;
      saved[..|saved| - |Extension(saved)|] == p + WithoutLastExtension(name)
  {
    ExtensionAfterPrefix(p, name);
    match LastDot(name)
    case None =>
      assert (p + name)[..|p + name|] == p + name;
    case Some(d) =>
      PrefixOfConcat(p, name, d);
  }

  /** The converted file reaches the user under the uploaded name with its
      last extension replaced by `.docx`; because the saved copy carries a
      timestamp prefix, even a leading dot counts as an extension here. */
  lemma {:induction false} ConvertedDocumentName(fileName: Option<string>, w: PdfWorld)
    requires '/' !in UploadName(fileName)
    requires w.upload.Ok?
    requires Converter.ConvertPdfToDocx(UploadPath(fileName, w.now), TempDir, w.convert, w.fs).Ok?
    ensures PdfReplies(fileName, w)[1].fileName == WithoutLastExtension(UploadName(fileName)) + ".docx"
  {
    var name := UploadName(fileName);
    StampedStem(TempDir, Stamp(w.now), name);
    DeliveredName(fileName, w, WithoutLastExtension(name));
  }

  /** Once the saved upload's stem is its timestamp and `kept`, the
      document reaches the user as `kept` with `.docx`. */
  lemma {:induction false} DeliveredName(fileName: Option<string>, w: PdfWorld, kept: string)
    requires w.upload.Ok?
    requires Converter.ConvertPdfToDocx(UploadPath(fileName, w.now), TempDir, w.convert, w.fs).Ok?
    requires Stem(UploadPath(fileName, w.now)) == Stamp(w.now) + kept
    ensures PdfReplies(fileName, w)[1].fileName == kept + ".docx"
  {
    var inputPath := UploadPath(fileName, w.now);
    Converter.DocxPathShape(inputPath, TempDir);
    var docx := Converter.DocxPath(inputPath, TempDir);
    assert Basename(docx) == (Stamp(w.now) + kept) + ".docx";
    ConcatAssoc(Stamp(w.now), kept, ".docx");
    StripTimestampRoundTrip(w.now, kept + ".docx");
  }

  /** A name that climbs out with `..` puts the upload outside the
      temporary directory: this one overwrites the bot's stored session
      credentials. */
  lemma {:induction false} UploadEscapesTempDir(now: nat)
    ensures UploadPath(Some("/../../" + AuthDir + "/" + CredsFile), now) == AuthDir + "/" + CredsFile
  {
    var st := Stamp(now);
    var name := "/../../" + AuthDir + "/" + CredsFile;
    assert name[0] == '/';
    assert UploadName(Some(name)) == name;
    StampedIsPlain(now, []);
    assert st + [] == st;
    assert UploadPath(Some(name), now) == Join(TempDir, st + name);
    assert st + name == st + "/../../" + AuthDir + "/" + CredsFile;
    SessionNamesArePlain();
    JoinClimbsOut(TempDir, st, AuthDir, CredsFile);
  }

  /** The session folder and its credentials file are plain names. */
  lemma {:induction false} SessionNamesArePlain()
    ensures PlainName(AuthDir) && PlainName(CredsFile)
  {
    assert forall i | 0 <= i < |AuthDir| :: AuthDir[i] != '/';
    assert forall i | 0 <= i < |CredsFile| :: CredsFile[i] != '/';
  }

  /** A name of `/.` leaves the saved upload named by its timestamp alone,
      so the converted document reaches the user as `.docx`. */
  lemma {:induction false} SlashDotUploadLosesName(w: PdfWorld)
    requires w.upload.Ok?
    requires Converter.ConvertPdfToDocx(UploadPath(Some("/."), w.now), TempDir, w.convert, w.fs).Ok?
    ensures PdfReplies(Some("/."), w)[1].fileName == ".docx"
  {
    SlashDotSavedAsStamp(w.now);
    DeliveredName(Some("/."), w, []);
  }

  /** An upload named `/.` is saved under its timestamp alone. */
  lemma {:induction false} SlashDotSavedAsStamp(now: nat)
    ensures Stem(UploadPath(Some("/."), now)) == Stamp(now) + []
  {
    var st := Stamp(now);
    StampedIsPlain(now, []);
    assert st + [] == st;
    assert UploadName(Some("/.")) == "/.";
    JoinDropsDot(TempDir, st);
    var inputPath := UploadPath(Some("/."), now);
    assert inputPath == TempDir + "/" + st;
    AfterLastSlashOf(TempDir + "/", st);
    StemOf(inputPath, st);
  }

  /** Where the upload would be saved if only the base name of the sender's
      file name were used. */
  function SafeUploadPath(fileName: Option<string>, now: nat): (p: string)
    ensures IsPrefix(TempDir + "/", p)
    ensures '/' !in p[|TempDir| + 1..]
    ensures Basename(p) == Stamp(now) + Basename(UploadName(fileName))
  {
    var saved := Stamp(now) + Basename(UploadName(fileName));
    StampedIsPlain(now, Basename(UploadName(fileName)));
    JoinInside(TempDir, saved);
    var p := Join(TempDir, saved);
    assert p[|TempDir| + 1..] == saved;
    BasenameOfJoin(TempDir, saved);
    p
  }

  /** A timestamp in front of a name without slashes makes a plain name. */
  lemma {:induction false} StampedIsPlain(now: nat, name: string)
    requires '/' !in name
    ensures PlainName(Stamp(now) + name)
  {
    var st := Stamp(now);
    var saved := st + name;
    assert saved[0] == st[0] != '.';
    forall i | 0 <= i < |saved|
      ensures saved[i] != '/'
    {
      if i >= |st| {
        assert saved[i] == name[i - |st|];
      }
    }
  }

  /** For a name without slashes the safe path is where the upload is saved
      now. */
  lemma {:induction false} SafeUploadPathAgrees(fileName: Option<string>, now: nat)
    requires '/' !in UploadName(fileName)
    ensures SafeUploadPath(fileName, now) == UploadPath(fileName, now)
  {
    var name := UploadName(fileName);
    AfterLastSlashOf([], name);
    assert StripTrailingSlashes(name) == name;
    assert Basename(name) == name;
  }
}

=== FILE: router.dfy ===
/** The message handler of index.ts (`messages.upsert`): which batches and
    messages are ignored, the order in which the menu, `!cep`, `!check`,
    PDF uploads, pending format choices and links are recognised, which of
    them end the batch, and the per-chat map of pending YouTube choices
    (`userStates`). A decision is a list of actions together with the map
    while they run and after them; `Perform` turns the actions into the
    replies of the Replies module. */
module Router {
  import opened Text
  import opened Results
  import opened Download
  import opened Seqs
  import Replies
  import Features

  /** The attached document of a message, when there is one. */
  datatype Document = Document(mimetype: Option<string>, fileName: Option<string>)

  /** One incoming message as the handler reads it. `chat` is the remote
      JID ("" when missing), `hasContent` is false for a message without a
      payload, and `text` is the conversation text or the extended text,
      "" when neither is set. */
  datatype Inbound = Inbound(chat: string, fromMe: bool, hasContent: bool, text: string, document: Option<Document>)

  /** The only step a pending entry can be at. */
  datatype Step = AwaitingFormat

  datatype PendingEntry = PendingEntry(url: string, step: Step)

  type Pending = map<string, PendingEntry>

  datatype Action =
    | Reply(text: string)
    | LookupCep(cep: string)
    | CheckLink(link: string)
    | ConvertPdf(fileName: Option<string>)
    | StartDownload(url: string, format: Format)

  /** What the handler does with one message. `during` is the map while
      its actions run, which is what a message handled meanwhile sees;
      `after` is the map once they have finished. `endsBatch` is set when
      the handler returns instead of going on to the batch's next message. */
  datatype Decision = Decision(during: Pending, after: Pending, actions: seq<Action>, endsBatch: bool)

  /** The `type` of a `messages.upsert` event. */
  datatype UpsertKind = Notify | Append

  const StatusBroadcast := "status@broadcast"
  const CepCommand := "!cep "
  const CheckCommand := "!check "
  const PdfMime := "application/pdf"
  const AudioStarting := "🎵 Baixando áudio... Aprox. 30s"
  const VideoStarting := "📹 Baixando vídeo... Aprox. 30s"
  const InvalidChoice := "❌ Opção inválida. Cancelado. Envie o link novamente."
  const FormatPrompt := "🎞️ *YouTube Detectado*\n\nComo você deseja baixar?\n\n1️⃣ *Áudio* (MP3)\n2️⃣ *Vídeo* (MP4)\n\n_Responda com 1 ou 2_"

  /** Messages the handler skips before doing anything. */
  predicate Ignored(ev: Inbound) {
    !ev.hasContent || ev.chat == "" || ev.chat == StatusBroadcast || ev.fromMe
  }

  predicate IsMenuCommand(text: string) {
    ToLowerAscii(text) == "!menu" || ToLowerAscii(text) == "!ajuda"
  }

  /** Text handled as a command; the commands end the handling. */
  predicate IsCommand(text: string) {
    IsMenuCommand(text) || IsPrefix(CepCommand, text) || IsPrefix(CheckCommand, text)
  }

  predicate IsPdf(ev: Inbound) {
    ev.document.Some? && ev.document.value.mimetype == Some(PdfMime)
  }

  predicate IsAudioChoice(text: string) {
    text == "1" || ToLowerAscii(text) == "audio"
  }

  predicate IsVideoChoice(text: string) {
    text == "2" || ToLowerAscii(text) == "video"
  }

  predicate IsYouTube(url: string) {
    Contains(url, "youtube.com") || Contains(url, "youtu.be")
  }

  // ---------------------------------------------------------------------
  // Links: `/(https?:\/\/[^\s]+)/g`, first match

  /** A text the link expression matches as a whole. */
  predicate IsUrlToken(u: string) {
    && ((IsPrefix("http://", u) && |u| > 7) || (IsPrefix("https://", u) && |u| > 8))
    && forall i | 0 <= i < |u| :: !IsSpace(u[i])
  }

  predicate NotSpace(c: char) {
    !IsSpace(c)
  }

  /** Length of the (greedy) match of the link expression at the start of
      `s`, 0 when it does not match there. */
  function UrlAt(s: string): (n: nat)
    ensures n <= |s|
    ensures n > 0 ==> IsUrlToken(s[..n]) && (n == |s| || IsSpace(s[n]))
    ensures n == 0 ==> forall k | 0 < k <= |s| :: !IsUrlToken(s[..k])
  {
    var run := Run(s, NotSpace);
    if (IsPrefix("https://", s) && run > 8) || (IsPrefix("http://", s) && run > 7) then
      assert forall i | 0 <= i < run :: s[..run][i] == s[i];
      run
    else
      assert forall k | 0 < k <= |s| :: !IsUrlToken(s[..k]) by {
        forall k | 0 < k <= |s| ensures !IsUrlToken(s[..k]) {
          if IsUrlToken(s[..k]) {
            UrlTokenStart(s, k);
          }
        }
      }
      0
  }

  /** A link at the start of `s` starts with a scheme and lies inside the
      run of non-space characters there. */
  lemma {:induction false} UrlTokenStart(s: string, k: nat)
    requires 0 < k <= |s| && IsUrlToken(s[..k])
    ensures k <= Run(s, NotSpace)
    ensures (IsPrefix("https://", s) && k > 8) || (IsPrefix("http://", s) && k > 7)
  {
    assert forall i | 0 <= i < k :: NotSpace(s[i]) by {
      forall i | 0 <= i < k ensures NotSpace(s[i]) {
        assert s[..k][i] == s[i];
      }
    }
    if IsPrefix("https://", s[..k]) && k > 8 {
      assert s[..k][..8] == s[..8];
    } else {
      assert s[..k][..7] == s[..7];
    }
  }

  /** The leftmost position at or after `from` where the expression matches. */
  function UrlStart(text: string, from: nat): (r: Option<nat>)
    requires from <= |text|
    ensures r.Some? ==> from <= r.value < |text| && UrlAt(text[r.value..]) > 0
    ensures r.Some? ==> forall k | from <= k < r.value :: UrlAt(text[k..]) == 0
    ensures r.None? ==> forall k | from <= k < |text| :: UrlAt(text[k..]) == 0
    decreases |text| - from
  {
    if from == |text| then None
    else if UrlAt(text[from..]) > 0 then Some(from)
    else UrlStart(text, from + 1)
  }

  /** `textContent.match(urlRegex)[0]`, when there is a match. */
  function FirstUrl(text: string): Option<string> {
    match UrlStart(text, 0)
    case None => None
    case Some(i) => Some(text[i..i + UrlAt(text[i..])])
  }

  /** The link taken is a whole match: it starts at the leftmost place where
      any link starts, runs to the next white space, and is a link. */
  lemma {:induction false} FirstUrlIsLeftmostMatch(text: string)
    requires FirstUrl(text).Some?
    ensures var u := FirstUrl(text).value;
      var i := UrlStart(text, 0).value;
      && IsUrlToken(u)
      && i + |u| <= |text| && text[i..i + |u|] == u
      && (i + |u| == |text| || IsSpace(text[i + |u|]))
      && forall k, j | 0 <= k < i && k < j <= |text| :: !IsUrlToken(text[k..j])
  {
    FirstUrlShape(text);
    NoUrlBefore(text, UrlStart(text, 0).value);
  }

  /** The link taken is a link, found where the expression first matches,
      and ends at white space or the end of the text. */
  lemma {:induction false} FirstUrlShape(text: string)
    requires FirstUrl(text).Some?
    ensures var u := FirstUrl(text).value;
      var i := UrlStart(text, 0).value;
      && IsUrlToken(u)
      && i + |u| <= |text| && text[i..i + |u|] == u
      && (i + |u| == |text| || IsSpace(text[i + |u|]))
  {
    var i := UrlStart(text, 0).value;
    var n := UrlAt(text[i..]);
    assert FirstUrl(text).value == text[i..i + n];
    assert text[i..][..n] == text[i..i + n];
    if i + n < |text| {
      assert text[i..][n] == text[i + n];
    }
  }

  /** Where the expression does not match, no link starts. */
  lemma {:induction false} NoUrlBefore(text: string, i: nat)
    requires i <= |text|
    requires forall k | 0 <= k < i :: UrlAt(text[k..]) == 0
    ensures forall k, j | 0 <= k < i && k < j <= |text| :: !IsUrlToken(text[k..j])
  {
    forall k, j | 0 <= k < i && k < j <= |text|
      ensures !IsUrlToken(text[k..j])
    {
      assert text[k..][..j - k] == text[k..j];
    }
  }

  /** No link is taken exactly when no part of the text is a link. */
  lemma {:induction false} FirstUrlNone(text: string)
    ensures FirstUrl(text).None? <==> forall i, j | 0 <= i < j <= |text| :: !IsUrlToken(text[i..j])
  {
    if FirstUrl(text).None? {
      NoUrlBefore(text, |text|);
    } else {
      var i := UrlStart(text, 0).value;
      var n := UrlAt(text[i..]);
      assert text[i..][..n] == text[i..i + n];
      assert IsUrlToken(text[i..i + n]);
    }
  }

  /** A message that is just a link is taken whole. */
  lemma {:induction false} LinkAlone(u: string)
    requires IsUrlToken(u)
    ensures FirstUrl(u) == Some(u)
  {
    var n := UrlAt(u);
    assert n > 0 by {
      assert u[..|u|] == u;
    }
    assert n == |u|;
    assert u[0..] == u;
    assert UrlStart(u, 0) == Some(0);
    assert u[0..0 + n] == u;
  }

  // ---------------------------------------------------------------------
  // The handler

  /** Every pending entry waits on a YouTube link that was sent. */
  predicate ValidPending(p: Pending) {
    forall c | c in p :: IsUrlToken(p[c].url) && IsYouTube(p[c].url)
  }

  /** The number of downloads a list of actions starts. */
  function DownloadCount(actions: seq<Action>): (n: nat)
    ensures n <= |actions|
    ensures n == 0 <==> forall i | 0 <= i < |actions| :: !actions[i].StartDownload?
  {
    if actions == [] then 0
    else (if actions[0].StartDownload? then 1 else 0) + DownloadCount(actions[1..])
  }

  /** The message a pending choice holds for `chat` once a link is sent. */
  function Held(pending: Pending, chat: string, url: string): Pending {
    pending[chat := PendingEntry(url, AwaitingFormat)]
  }

  /** The handler for one message of a `notify` batch. */
  function Handle(ev: Inbound, pending: Pending): (d: Decision)
    ensures Ignored(ev) ==> d == Decision(pending, pending, [], false)
    ensures !Ignored(ev) && (IsCommand(ev.text) || IsPdf(ev)) ==>
      d.during == pending && d.after == pending && |d.actions| == 1
    ensures d.endsBatch <==>
      !Ignored(ev) && (IsCommand(ev.text) || IsPdf(ev) || ev.chat in pending
                       || (FirstUrl(ev.text).Some? && IsYouTube(FirstUrl(ev.text).value)))
    ensures d.during == pending
         || (FirstUrl(ev.text).Some? && d.during == Held(pending, ev.chat, FirstUrl(ev.text).value))
    ensures forall c | c != ev.chat :: (c in d.during <==> c in pending) && (c in d.after <==> c in pending)
    ensures forall c | c != ev.chat && c in pending :: d.during[c] == pending[c] && d.after[c] == pending[c]
  {
    if Ignored(ev) then Decision(pending, pending, [], false)
    else if IsMenuCommand(ev.text) then Decision(pending, pending, [Reply(Replies.MenuText)], true)
    else if IsPrefix(CepCommand, ev.text) then
      Decision(pending, pending, [LookupCep(Trim(ev.text[|CepCommand|..]))], true)
    else if IsPrefix(CheckCommand, ev.text) then
      Decision(pending, pending, [CheckLink(Trim(ev.text[|CheckCommand|..]))], true)
    else if IsPdf(ev) then Decision(pending, pending, [ConvertPdf(ev.document.value.fileName)], true)
    else if ev.chat in pending then
      // the entry is deleted only once the awaited reply or download is done
      var url := pending[ev.chat].url;
      var rest := pending - {ev.chat};
      if IsAudioChoice(ev.text) then
        Decision(pending, rest, [Reply(AudioStarting), StartDownload(url, Audio)], true)
      else if IsVideoChoice(ev.text) then
        Decision(pending, rest, [Reply(VideoStarting), StartDownload(url, Video)], true)
      else Decision(pending, rest, [Reply(InvalidChoice)], true)
    else
      match FirstUrl(ev.text)
      case None => Decision(pending, pending, [], false)
      case Some(url) =>
        if IsYouTube(url) then
          var held := Held(pending, ev.chat, url);
          Decision(held, held, [Reply(FormatPrompt)], true)
        else Decision(pending, pending, [StartDownload(url, Video)], false)
  }

  /** One message starts at most one download. */
  lemma {:induction false} HandleStartsAtMostOneDownload(ev: Inbound, pending: Pending)
    ensures DownloadCount(Handle(ev, pending).actions) <= 1
  {
    var actions := Handle(ev, pending).actions;
    assert |actions| <= 2;
    if |actions| == 2 {
      assert !actions[0].StartDownload?;
      assert DownloadCount(actions) == DownloadCount(actions[1..]);
    }
  }

  /** Pending entries only ever hold YouTube links taken from a message. */
  lemma {:induction false} HandleKeepsValidPending(ev: Inbound, pending: Pending)
    requires ValidPending(pending)
    ensures ValidPending(Handle(ev, pending).during) && ValidPending(Handle(ev, pending).after)
  {
    if Ignored(ev) || IsCommand(ev.text) || IsPdf(ev) {
    } else if ev.chat in pending {
      assert ValidPending(pending - {ev.chat});
    } else {
      match FirstUrl(ev.text)
      case None =>
      case Some(url) =>
        FirstUrlIsLeftmostMatch(ev.text);
        if IsYouTube(url) {
          HeldIsValid(pending, ev.chat, url);
        }
    }
  }

  lemma {:induction false} HeldIsValid(pending: Pending, chat: string, url: string)
    requires ValidPending(pending) && IsUrlToken(url) && IsYouTube(url)
    ensures ValidPending(Held(pending, chat, url))
  {
  }

  /** A reply in a chat with a pending choice settles it: the stored link is
      downloaded in the chosen format, anything else is refused, and the
      entry goes once that is done, ending the batch. */
  lemma {:induction false} PendingChoiceSettles(ev: Inbound, pending: Pending)
    requires !Ignored(ev) && !IsCommand(ev.text) && !IsPdf(ev) && ev.chat in pending
    ensures var d := Handle(ev, pending);
      var url := pending[ev.chat].url;
      && d.during == pending && d.after == pending - {ev.chat} && d.endsBatch
      && (IsAudioChoice(ev.text) ==> d.actions == [Reply(AudioStarting), StartDownload(url, Audio)])
      && (!IsAudioChoice(ev.text) && IsVideoChoice(ev.text) ==>
            d.actions == [Reply(VideoStarting), StartDownload(url, Video)])
      && (!IsAudioChoice(ev.text) && !IsVideoChoice(ev.text) ==> d.actions == [Reply(InvalidChoice)])
  {
  }

  /** Without a pending choice, a YouTube link is held for a choice and ends
      the batch, and any other link is downloaded as video at once, the
      batch going on afterwards. */
  lemma {:induction false} LinkWithoutPending(ev: Inbound, pending: Pending)
    requires !Ignored(ev) && !IsCommand(ev.text) && !IsPdf(ev) && ev.chat !in pending
    ensures var d := Handle(ev, pending);
      match FirstUrl(ev.text)
      case None => d == Decision(pending, pending, [], false)
      case Some(url) =>
        if IsYouTube(url) then
          && d.during == d.after == Held(pending, ev.chat, url)
          && DownloadCount(d.actions) == 0 && d.endsBatch
        else d == Decision(pending, pending, [StartDownload(url, Video)], false)
  {
  }

  /** A link is not a command. */
  lemma {:induction false} LinkIsNotCommand(link: string)
    requires IsUrlToken(link)
    ensures !IsCommand(link)
  {
    assert link[0] == 'h';
    assert ToLowerAscii(link)[0] == 'h';
  }

  /** A message that is only a YouTube link, in a chat without a pending
      choice, is held for the format question. */
  lemma {:induction false} YouTubeLinkHeld(chat: string, link: string, pending: Pending)
    requires chat != "" && chat != StatusBroadcast && chat !in pending
    requires IsUrlToken(link) && IsYouTube(link)
    ensures var held := Held(pending, chat, link);
      Handle(Inbound(chat, false, true, link, None), pending) == Decision(held, held, [Reply(FormatPrompt)], true)
  {
    LinkAlone(link);
    LinkIsNotCommand(link);
  }

  /** Answering `1` to a pending choice downloads its link as audio. */
  lemma {:induction false} AnswerOneDownloadsAudio(chat: string, pending: Pending)
    requires chat != "" && chat != StatusBroadcast && chat in pending
    ensures Handle(Inbound(chat, false, true, "1", None), pending)
         == Decision(pending, pending - {chat}, [Reply(AudioStarting), StartDownload(pending[chat].url, Audio)], true)
  {
    assert ToLowerAscii("1") == "1";
  }

  /** The YouTube exchange: a link, then `1`, downloads that link as audio
      and, once that is done, leaves the chat with no pending choice. */
  lemma {:induction false} YouTubeConversation(chat: string, link: string, pending: Pending)
    requires chat != "" && chat != StatusBroadcast && chat !in pending
    requires IsUrlToken(link) && IsYouTube(link)
    ensures var first := Handle(Inbound(chat, false, true, link, None), pending);
      && first.actions == [Reply(FormatPrompt)]
      && var second := Handle(Inbound(chat, false, true, "1", None), first.after);
      && second.actions == [Reply(AudioStarting), StartDownload(link, Audio)]
      && second.after == pending
  {
    YouTubeLinkHeld(chat, link, pending);
    var held := Held(pending, chat, link);
    AnswerOneDownloadsAudio(chat, held);
    assert held - {chat} == pending;
  }

  /** While a chosen download runs its entry is still there: a second `1`
      in the same chat starts the same download again. */
  lemma {:induction false} RepeatedChoiceDownloadsTwice(chat: string, pending: Pending)
    requires chat != "" && chat != StatusBroadcast && chat in pending
    ensures var first := Handle(Inbound(chat, false, true, "1", None), pending);
      var second := Handle(Inbound(chat, false, true, "1", None), first.during);
      && DownloadCount(first.actions) == 1
      && second.actions == first.actions
  {
    AnswerOneDownloadsAudio(chat, pending);
    var first := Handle(Inbound(chat, false, true, "1", None), pending);
    assert DownloadCount(first.actions) == DownloadCount(first.actions[1..]);
  }

  /** While a chosen download runs, a new YouTube link in the same chat is
      taken for an answer to the old question: it is refused and not held. */
  lemma {:induction false} LinkDuringDownloadIsLost(chat: string, link: string, pending: Pending)
    requires chat != "" && chat != StatusBroadcast && chat in pending
    requires IsUrlToken(link) && IsYouTube(link)
    ensures var first := Handle(Inbound(chat, false, true, "1", None), pending);
      var second := Handle(Inbound(chat, false, true, link, None), first.during);
      && second.actions == [Reply(InvalidChoice)]
      && chat !in second.after
  {
    AnswerOneDownloadsAudio(chat, pending);
    LinkIsNotCommand(link);
    LinkIsNoChoice(link);
    PendingChoiceSettles(Inbound(chat, false, true, link, None), pending);
  }

  /** A link is not an answer to the format question. */
  lemma {:induction false} LinkIsNoChoice(link: string)
    requires IsUrlToken(link)
    ensures !IsAudioChoice(link) && !IsVideoChoice(link)
  {
    assert ToLowerAscii(link)[0] == 'h';
  }

  /** The argument of `!cep` is the rest of the text with its surrounding
      white space removed. */
  lemma {:induction false} CepArgument(chat: string, cep: string, pending: Pending)
    requires chat != "" && chat != StatusBroadcast
    requires cep != [] && !IsSpace(cep[0]) && !IsSpace(cep[|cep| - 1])
    ensures Handle(Inbound(chat, false, true, CepCommand + cep, None), pending)
         == Decision(pending, pending, [LookupCep(cep)], true)
  {
    var text := CepCommand + cep;
    assert text[..|CepCommand|] == CepCommand;
    assert text[|CepCommand|..] == cep;
    TrimUntouched(cep);
    assert ToLowerAscii(text)[0] == '!' && ToLowerAscii(text)[1] == 'c';
    assert ToLowerAscii(text) != "!menu" && ToLowerAscii(text) != "!ajuda";
  }

  /** `!menu` and `!ajuda`, in any letter case, are answered with the menu
      and end the batch, whatever document the message carries. */
  lemma {:induction false} MenuAnswered(ev: Inbound, pending: Pending)
    requires !Ignored(ev) && IsMenuCommand(ev.text)
    ensures Handle(ev, pending) == Decision(pending, pending, [Reply(Replies.MenuText)], true)
  {
  }

  /** A `!cep ` text is neither the menu nor `!check `. */
  lemma {:induction false} CepIsOnlyCep(text: string)
    requires IsPrefix(CepCommand, text)
    ensures !IsMenuCommand(text) && !IsPrefix(CheckCommand, text)
  {
    assert text[1] == CepCommand[1] && text[2] == CepCommand[2];
    assert ToLowerAscii(text)[1] == 'c';
    assert CheckCommand[2] != CepCommand[2];
  }

  /** A `!check ` text is neither the menu nor `!cep `. */
  lemma {:induction false} CheckIsOnlyCheck(text: string)
    requires IsPrefix(CheckCommand, text)
    ensures !IsMenuCommand(text) && !IsPrefix(CepCommand, text)
  {
    assert text[1] == CheckCommand[1] && text[2] == CheckCommand[2];
    assert ToLowerAscii(text)[1] == 'c';
    assert CheckCommand[2] != CepCommand[2];
  }

  /** `!cep ` looks up the rest of the text, trimmed, and ends the batch. */
  lemma {:induction false} CepCommandLooksUp(ev: Inbound, pending: Pending)
    requires !Ignored(ev) && IsPrefix(CepCommand, ev.text)
    ensures Handle(ev, pending) == Decision(pending, pending, [LookupCep(Trim(ev.text[|CepCommand|..]))], true)
  {
    CepIsOnlyCep(ev.text);
  }

  /** `!check ` checks the rest of the text, trimmed, and ends the batch. */
  lemma {:induction false} CheckArgument(ev: Inbound, pending: Pending)
    requires !Ignored(ev) && IsPrefix(CheckCommand, ev.text)
    ensures Handle(ev, pending) == Decision(pending, pending, [CheckLink(Trim(ev.text[|CheckCommand|..]))], true)
  {
    CheckIsOnlyCheck(ev.text);
  }

  /** A PDF that does not come with a command is converted, under the
      file name it was sent with, and ends the batch. */
  lemma {:induction false} PdfConverted(ev: Inbound, pending: Pending)
    requires !Ignored(ev) && !IsCommand(ev.text) && IsPdf(ev)
    ensures Handle(ev, pending) == Decision(pending, pending, [ConvertPdf(ev.document.value.fileName)], true)
  {
  }

  // ---------------------------------------------------------------------
  // Carrying out the actions

  /** What the replies depend on while one batch is handled. */
  datatype World = World(
    viacep: string -> Features.CepResponse,
    head: string -> Features.HeadOutcome,
    env: Environment,
    mimeLookup: string -> Option<string>,
    pdf: Replies.PdfWorld)

  function Perform(a: Action, w: World): (out: seq<Replies.Outbound>)
    ensures |out| >= 1
    ensures a.StartDownload? ==> out == Replies.DownloadReplies(a.url, a.format, w.env, w.mimeLookup)
    ensures a.Reply? ==> out == [Replies.TextReply(a.text)]
    ensures a.LookupCep? ==> out == [Replies.CepReply(a.cep, w.viacep)]
    ensures a.CheckLink? ==> out == [Replies.TextReply(Features.CheckLinkSafety(a.link, w.head))]
    ensures a.ConvertPdf? ==> out == Replies.PdfReplies(a.fileName, w.pdf)
  {
    match a
    case Reply(t) => [Replies.TextReply(t)]
    case LookupCep(c) => [Replies.CepReply(c, w.viacep)]
    case CheckLink(l) => [Replies.TextReply(Features.CheckLinkSafety(l, w.head))]
    case ConvertPdf(f) => Replies.PdfReplies(f, w.pdf)
    case StartDownload(u, f) => Replies.DownloadReplies(u, f, w.env, w.mimeLookup)
  }

  /** Whether the awaited work of an action comes to an end. */
  predicate Finishes(a: Action, w: World) {
    a.StartDownload? ==> Replies.DownloadSettles(a.url, a.format, w.env)
  }

  /** The messages a list of actions sends, and whether the last of them
      finished: an action that never finishes holds up the ones after it. */
  datatype Sent = Sent(messages: seq<Replies.Outbound>, finished: bool)

  function PerformAll(actions: seq<Action>, w: World): (r: Sent)
    ensures r.finished <==> forall i | 0 <= i < |actions| :: Finishes(actions[i], w)
    ensures r.finished ==> |r.messages| >= |actions|
    ensures actions != [] ==> Perform(actions[0], w) <= r.messages
  {
    if actions == [] then Sent([], true)
    else
      var first := Perform(actions[0], w);
      if !Finishes(actions[0], w) then Sent(first, false)
      else
        var rest := PerformAll(actions[1..], w);
        TailIndices(actions);
        PrefixOfAppend(first, rest.messages);
        Sent(first + rest.messages, rest.finished)
  }

  /** The handling of one message: the map it leaves, what it sent, and
      whether it returned. A handler stuck on an action leaves the map as
      it was while the action ran. */
  datatype Response = Response(pending: Pending, sent: seq<Replies.Outbound>, returned: bool)

  function Respond(ev: Inbound, pending: Pending, w: World): (r: Response)
    ensures r.returned ==> r.pending == Handle(ev, pending).after
    ensures !r.returned ==> r.pending == Handle(ev, pending).during
    ensures r.returned <==> forall i | 0 <= i < |Handle(ev, pending).actions| :: Finishes(Handle(ev, pending).actions[i], w)
    ensures Ignored(ev) ==> r == Response(pending, [], true)
  {
    var d := Handle(ev, pending);
    var run := PerformAll(d.actions, w);
    Response(if run.finished then d.after else d.during, run.messages, run.finished)
  }

  /** A `messages.upsert` event: only `notify` batches are handled, message
      by message, until a handler returns early or never returns. */
  function RespondBatch(kind: UpsertKind, msgs: seq<Inbound>, pending: Pending, w: World): (r: (Pending, seq<Replies.Outbound>))
    ensures kind == Append ==> r == (pending, [])
  {
    if kind == Append then (pending, []) else RespondFrom(msgs, pending, w)
  }

  function RespondFrom(msgs: seq<Inbound>, pending: Pending, w: World): (r: (Pending, seq<Replies.Outbound>))
    ensures msgs != [] ==> Respond(msgs[0], pending, w).sent <= r.1
    decreases |msgs|
  {
    if msgs == [] then (pending, [])
    else
      var first := Respond(msgs[0], pending, w);
      if !first.returned || Handle(msgs[0], pending).endsBatch then (first.pending, first.sent)
      else
        var rest := RespondFrom(msgs[1..], first.pending, w);
        PrefixOfAppend(first.sent, rest.1);
        (rest.0, first.sent + rest.1)
  }

  /** A batch of messages the handler skips changes nothing and sends
      nothing. */
  lemma {:induction false} IgnoredBatchIsSilent(msgs: seq<Inbound>, pending: Pending, w: World)
    requires forall i | 0 <= i < |msgs| :: Ignored(msgs[i])
    ensures RespondFrom(msgs, pending, w) == (pending, [])
  {
    if msgs != [] {
      assert forall i | 0 <= i < |msgs[1..]| :: msgs[1..][i] == msgs[i + 1];
      IgnoredBatchIsSilent(msgs[1..], pending, w);
    }
  }

  /** A command ends the batch: the messages after it are never looked at. */
  lemma {:induction false} CommandEndsBatch(msgs: seq<Inbound>, pending: Pending, w: World)
    requires msgs != [] && !Ignored(msgs[0]) && (IsCommand(msgs[0].text) || IsPdf(msgs[0]))
    ensures RespondFrom(msgs, pending, w) == RespondFrom(msgs[..1], pending, w)
  {
    assert msgs[..1][0] == msgs[0];
  }

  /** A plain link's download does not end the batch: once it is done, the
      next message is handled. */
  lemma {:induction false} PlainLinkContinuesBatch(msgs: seq<Inbound>, pending: Pending, w: World)
    requires |msgs| >= 2 && !Ignored(msgs[0]) && !IsCommand(msgs[0].text) && !IsPdf(msgs[0])
    requires msgs[0].chat !in pending
    requires FirstUrl(msgs[0].text).Some? && !IsYouTube(FirstUrl(msgs[0].text).value)
    requires Replies.DownloadSettles(FirstUrl(msgs[0].text).value, Video, w.env)
    ensures var first := Respond(msgs[0], pending, w);
      RespondFrom(msgs, pending, w) == (RespondFrom(msgs[1..], pending, w).0, first.sent + RespondFrom(msgs[1..], pending, w).1)
  {
    LinkWithoutPending(msgs[0], pending);
  }

  /** A chosen video download that never settles holds the handler for
      ever: the chat keeps its pending entry, and nothing after the
      hourglass is sent. */
  lemma {:induction false} StalledChoiceKeepsEntry(chat: string, pending: Pending, w: World)
    requires chat != "" && chat != StatusBroadcast && chat in pending
    requires !Replies.DownloadSettles(pending[chat].url, Video, w.env)
    ensures var r := Respond(Inbound(chat, false, true, "2", None), pending, w);
      && !r.returned && r.pending == pending
      && r.sent == [Replies.TextReply(VideoStarting), Replies.Reaction("⏳")]
  {
    var ev := Inbound(chat, false, true, "2", None);
    var url := pending[chat].url;
    AnswerTwoDownloadsVideo(chat, pending);
    var actions := [Reply(VideoStarting), StartDownload(url, Video)];
    var hourglass := [Replies.TextReply(VideoStarting), Replies.Reaction("⏳")];
    StalledVideoSends(url, w);
    RespondOf(ev, pending, w, Decision(pending, pending - {chat}, actions, true), Sent(hourglass, false));
  }

  /** The video announcement followed by a download that never settles
      sends the announcement and the hourglass, and does not finish. */
  lemma {:induction false} StalledVideoSends(url: string, w: World)
    requires !Replies.DownloadSettles(url, Video, w.env)
    ensures PerformAll([Reply(VideoStarting), StartDownload(url, Video)], w)
         == Sent([Replies.TextReply(VideoStarting), Replies.Reaction("⏳")], false)
  {
    var hourglass := Replies.Reaction("⏳");
    Replies.StalledDownloadIsHourglass(url, Video, w.env, w.mimeLookup);
    StalledAfterReply(VideoStarting, StartDownload(url, Video), w, [hourglass]);
    PairOfSingletons(Replies.TextReply(VideoStarting), hourglass);
  }

  /** What a handled message sends, given its decision and the actions' run. */
  lemma {:induction false} RespondOf(ev: Inbound, pending: Pending, w: World, d: Decision, run: Sent)
    requires Handle(ev, pending) == d && PerformAll(d.actions, w) == run
    ensures Respond(ev, pending, w) == Response(if run.finished then d.after else d.during, run.messages, run.finished)
  {
  }

  /** A reply followed by an action that never finishes: both send, and
      the run does not finish. */
  lemma {:induction false} StalledAfterReply(t: string, a: Action, w: World, sent: seq<Replies.Outbound>)
    requires !Finishes(a, w) && Perform(a, w) == sent
    ensures PerformAll([Reply(t), a], w) == Sent([Replies.TextReply(t)] + sent, false)
  {
    assert [Reply(t), a][1..] == [a];
  }

  /** Answering `2` to a pending choice downloads its link as video. */
  lemma {:induction false} AnswerTwoDownloadsVideo(chat: string, pending: Pending)
    requires chat != "" && chat != StatusBroadcast && chat in pending
    ensures Handle(Inbound(chat, false, true, "2", None), pending)
         == Decision(pending, pending - {chat}, [Reply(VideoStarting), StartDownload(pending[chat].url, Video)], true)
  {
    assert ToLowerAscii("2") == "2";
  }
}

=== FILE: text.dfy ===
/** String operations with the meaning the bot's JavaScript gives them:
    `startsWith`, `endsWith`, `includes`, `trim`, `toLowerCase` (on the
    words the bot compares against), `replace(/\D/g, '')`, template
    interpolation of integers, and the leading-run scans its regular
    expressions perform. */
module Text {

  /** `s.startsWith(p)` */
  predicate IsPrefix(p: string, s: string) {
    |p| <= |s| && s[..|p|] == p
  }

  /** `s.endsWith(p)` */
  predicate IsSuffix(p: string, s: string) {
    |p| <= |s| && s[|s| - |p|..] == p
  }

  /** `s.includes(sub)` */
  predicate Contains(s: string, sub: string) {
    exists i | 0 <= i <= |s| - |sub| :: IsPrefix(sub, s[i..])
  }

  lemma {:induction false} ContainsInfix(x: string, sub: string, y: string)
    ensures Contains(x + sub + y, sub)
  {
    var s := x + sub + y;
    assert s[|x|..][..|sub|] == sub;
    assert IsPrefix(sub, s[|x|..]);
  }

  lemma {:induction false} ConcatAssoc(a: string, b: string, c: string)
    ensures (a + b) + c == a + (b + c)
  {
  }

  /** Cutting a concatenation inside its second part. */
  lemma {:induction false} PrefixOfConcat(a: string, b: string, k: nat)
    requires k <= |b|
    ensures (a + b)[..|a| + k] == a + b[..k]
  {
  }

  lemma {:induction false} ContainsPrefix(p: string, s: string)
    requires IsPrefix(p, s)
    ensures Contains(s, p)
  {
    assert s[0..] == s;
  }

  /** What a string contains, a longer string around it contains too. */
  lemma {:induction false} ContainsWidened(a: string, s: string, b: string, sub: string)
    requires Contains(s, sub)
    ensures Contains(a + s + b, sub)
  {
    var i :| 0 <= i <= |s| - |sub| && IsPrefix(sub, s[i..]);
    var t := a + s + b;
    assert t[|a| + i..][..|sub|] == s[i..][..|sub|];
    assert IsPrefix(sub, t[|a| + i..]);
  }

  /** What the tail of `s` contains, `s` contains. */
  lemma {:induction false} ContainsInTail(s: string, sub: string)
    requires s != [] && Contains(s[1..], sub)
    ensures Contains(s, sub)
  {
    var i :| 0 <= i <= |s[1..]| - |sub| && IsPrefix(sub, s[1..][i..]);
    assert s[1..][i..] == s[i + 1..];
  }

  /** A string lacking some character of `sub` cannot contain `sub`. */
  lemma {:induction false} MissingCharNotContained(s: string, sub: string, k: nat)
    requires k < |sub|
    requires forall i | 0 <= i < |s| :: s[i] != sub[k]
    ensures !Contains(s, sub)
  {
    forall i | 0 <= i <= |s| - |sub|
      ensures !IsPrefix(sub, s[i..])
    {
      assert s[i..][k] == s[i + k];
    }
  }

  /** When the last character of `m` occurs nowhere else in `m`, an
      occurrence of `m` cannot start inside a text `x` free of `m` and run
      on into an `m` that follows it: the only occurrence of `m` starting
      before the end of `x + m` is the one after `x`. */
  lemma {:induction false} NoOccurrenceInside(x: string, m: string, s: string, i: nat)
    requires m != [] && m[|m| - 1] !in m[..|m| - 1]
    requires !Contains(x, m)
    requires i < |x|
    ensures !IsPrefix(m, (x + m + s)[i..])
  {
    var t := x + m + s;
    var j := i + |m| - 1;
    if j < |x| {
      assert !IsPrefix(m, x[i..]);
      assert x[i..][..|m|] != m;
      var k :| 0 <= k < |m| && x[i..][..|m|][k] != m[k];
      assert t[i..][k] == x[i + k];
    } else {
      assert t[i..][|m| - 1] == t[j] == m[j - |x|];
      assert m[..|m| - 1][j - |x|] == m[j - |x|];
    }
  }

  /** JavaScript line terminators: what `.` in a regular expression refuses. */
  predicate IsLineTerminator(c: char) {
    c == '\n' || c == '\r' || c == '\U{2028}' || c == '\U{2029}'
  }

  predicate NotLineTerminator(c: char) {
    !IsLineTerminator(c)
  }

  /** JavaScript white space: what `\s` matches and `trim` removes. */
  predicate IsSpace(c: char) {
    || IsLineTerminator(c)
    || c == ' ' || c == '\t' || c == '\U{000B}' || c == '\U{000C}'
    || c == '\U{00A0}' || c == '\U{FEFF}' || c == '\U{1680}'
    || ('\U{2000}' <= c <= '\U{200A}')
    || c == '\U{202F}' || c == '\U{205F}' || c == '\U{3000}'
  }

  /** `\d`: ASCII digits only. */
  predicate IsDigit(c: char) {
    '0' <= c <= '9'
  }

  predicate AllDigits(s: string) {
    forall i | 0 <= i < |s| :: IsDigit(s[i])
  }

  predicate AllSpace(s: string) {
    forall i | 0 <= i < |s| :: IsSpace(s[i])
  }

  /** Length of the longest prefix of `s` whose characters all satisfy `p`. */
  function Run(s: string, p: char -> bool): (n: nat)
    ensures n <= |s|
    ensures forall i | 0 <= i < n :: p(s[i])
    ensures n < |s| ==> !p(s[n])
  {
    if |s| > 0 && p(s[0]) then 1 + Run(s[1..], p) else 0
  }

  /** A run that stops where the first character failing `p` is. */
  lemma {:induction false} RunOf(a: string, b: string, p: char -> bool)
    requires forall i | 0 <= i < |a| :: p(a[i])
    requires b == [] || !p(b[0])
    ensures Run(a + b, p) == |a|
  {
    if a != [] {
      assert (a + b)[1..] == a[1..] + b;
      RunOf(a[1..], b, p);
    } else {
      assert a + b == b;
    }
  }

  /** `s.trimStart()` */
  function TrimStart(s: string): (r: string)
    ensures IsSuffix(r, s)
    ensures AllSpace(s[..|s| - |r|])
    ensures r == [] || !IsSpace(r[0])
  {
    s[Run(s, IsSpace)..]
  }

  /** `s.trimEnd()` */
  function TrimEnd(s: string): (r: string)
    ensures IsPrefix(r, s)
    ensures AllSpace(s[|r|..])
    ensures r == [] || !IsSpace(r[|r| - 1])
  {
    if |s| > 0 && IsSpace(s[|s| - 1]) then TrimEnd(s[..|s| - 1]) else s
  }

  /** `s.trim()` */
  function Trim(s: string): string {
    TrimEnd(TrimStart(s))
  }

  /** A string that neither starts nor ends with white space is its own trim. */
  lemma {:induction false} TrimUntouched(s: string)
    requires s == [] || (!IsSpace(s[0]) && !IsSpace(s[|s| - 1]))
    ensures Trim(s) == s
  {
    if s != [] {
      assert Run(s, IsSpace) == 0;
      assert s[0..] == s;
    }
    assert TrimStart(s) == s;
  }

  /** ASCII lower-casing. JavaScript's `toLowerCase` also folds non-ASCII
      letters, but the only non-ASCII characters it turns into ASCII ones are
      U+212A (to 'k') and U+0130 (to "i" plus a combining dot), so comparing
      the lower-cased text with a word made of ASCII characters other than
      'k' gives the same answer either way. */
  function ToLowerAscii(s: string): (r: string)
    ensures |r| == |s|
    ensures forall i | 0 <= i < |s| :: r[i] == (if 'A' <= s[i] <= 'Z' then s[i] - 'A' + 'a' else s[i])
  {
    if s == [] then []
    else [if 'A' <= s[0] <= 'Z' then s[0] - 'A' + 'a' else s[0]] + ToLowerAscii(s[1..])
  }

  /** `s.replace(/\D/g, '')`: keep the digits, in order. */
  function KeepDigits(s: string): (r: string)
    ensures AllDigits(r)
    ensures |r| <= |s|
    ensures r == [] ==> forall i | 0 <= i < |s| :: !IsDigit(s[i])
    ensures forall c | IsDigit(c) :: multiset(r)[c] == multiset(s)[c]
  {
    if s == [] then []
    else
      assert s == [s[0]] + s[1..];
      if IsDigit(s[0]) then [s[0]] + KeepDigits(s[1..])
      else KeepDigits(s[1..])
  }

  lemma {:induction false} KeepDigitsAppend(a: string, b: string)
    ensures KeepDigits(a + b) == KeepDigits(a) + KeepDigits(b)
  {
    if a == [] {
      assert a + b == b;
    } else {
      var t := a[1..];
      assert a == [a[0]] + t;
      assert a + b == [a[0]] + (t + b);
      KeepDigitsCons(a[0], t + b);
      KeepDigitsCons(a[0], t);
      KeepDigitsAppend(t, b);
      if IsDigit(a[0]) {
        ConcatAssoc([a[0]], KeepDigits(t), KeepDigits(b));
      }
    }
  }

  /** One character in front: kept when it is a digit. */
  lemma {:induction false} KeepDigitsCons(c: char, s: string)
    ensures KeepDigits([c] + s) == if IsDigit(c) then [c] + KeepDigits(s) else KeepDigits(s)
  {
    assert ([c] + s)[1..] == s;
  }

  /** Deleting non-digits changes nothing in a string of digits. */
  lemma {:induction false} KeepDigitsOfDigits(s: string)
    requires AllDigits(s)
    ensures KeepDigits(s) == s
  {
    if s != [] {
      KeepDigitsOfDigits(s[1..]);
    }
  }

  /** A text without digits is deleted entirely. With `KeepDigitsAppend`
      and `KeepDigitsOfDigits` this pins the function down: digits stay,
      in order, and everything else goes. */
  lemma {:induction false} KeepDigitsOfNonDigits(s: string)
    requires forall i | 0 <= i < |s| :: !IsDigit(s[i])
    ensures KeepDigits(s) == []
  {
    if s != [] {
      assert forall i | 0 <= i < |s[1..]| :: s[1..][i] == s[i + 1];
      KeepDigitsOfNonDigits(s[1..]);
    }
  }

  /** `s.split(c)[0]`: everything before the first `c`. */
  function BeforeFirst(s: string, c: char): (r: string)
    ensures IsPrefix(r, s)
    ensures c !in r
    ensures |r| < |s| ==> s[|r|] == c
  {
    s[..Run(s, x => x != c)]
  }

  function DigitChar(d: nat): (c: char)
    requires d < 10
    ensures IsDigit(c)
  {
    '0' + d as char
  }

  /** `${n}` for a non-negative integer: its decimal digits, no leading zero. */
  function Decimal(n: nat): (s: string)
    ensures |s| >= 1 && AllDigits(s)
    ensures |s| > 1 ==> s[0] != '0'
  {
    if n < 10 then [DigitChar(n)] else Decimal(n / 10) + [DigitChar(n % 10)]
  }

  /** Value of a string of decimal digits. */
  function DecimalValue(s: string): nat
    requires AllDigits(s)
  {
    if s == [] then 0 else 10 * DecimalValue(s[..|s| - 1]) + (s[|s| - 1] - '0') as nat
  }

  /** Reading back the digits `${n}` produced gives `n`. */
  lemma {:induction false} DecimalRoundTrip(n: nat)
    ensures DecimalValue(Decimal(n)) == n
  {
    if n >= 10 {
      var s := Decimal(n);
      assert s[..|s| - 1] == Decimal(n / 10);
      DecimalRoundTrip(n / 10);
    }
  }

  /** Distinct timestamps give distinct decimal texts. */
  lemma {:induction false} DecimalInjective(m: nat, n: nat)
    requires Decimal(m) == Decimal(n)
    ensures m == n
  {
    DecimalRoundTrip(m);
    DecimalRoundTrip(n);
  }

  /** `${i}` for any integer. */
  function IntText(i: int): (s: string)
    ensures i < 0 <==> (|s| > 0 && s[0] == '-')
  {
    if i < 0 then "-" + Decimal(-i) else Decimal(i)
  }
}
